=== FILE: README.md ===
# timbre's audio graph, in Dafny

timbre is a pull-based audio graph. Every node has a `read` that fills a sample
buffer and answers with a `ReadResult`: a stream state (`Good`, `Underrun`,
`Finished`) and the number of samples written at the front of the buffer.
The nodes modelled here are:

- generators and sources: the sine tone, the WAV decoder and the capture-device queue;
- effects: the echo, the low-pass and high-pass filters and the mixer;
- the output device callback, which pulls from the graph and silences what was not written.

The model is functional. A node is an immutable datatype. The reads of the
filters, the echo, the mixer, the WAV decoder and the capture queue are
functions (state, format, buffer) → (state', buffer', result); the tone's read
and the capture queue's drain loop are methods, the latter proved equal to the
function `Capture.Drain`. An upstream is a type parameter `S` together with a
total step function `Reader<S>`: any producer that fills the slice it is
given. Each node is stated for every such upstream. Plugging one modelled node
into another takes a total wrapper that meets the inner read's precondition
(each read has one, `CanRead` or its own `requires`) and, for the mixer,
supplies the visiting order; the tone's method read cannot be such an
upstream. Samples are exact `real`s.
timbre's code mixes three API generations. They are unified into one
`ReadResult(state, read)`. The older result, whose `Good` carried no count,
is read through `Written(r, len)`, which takes `Good` to mean the whole
buffer. Where the Rust code panics (`assert!`, an unsupported channel count, a
remainder by zero), the model has a precondition. A failed assertion in
`convert_samples` becomes `None`.

Files:

- `core.dfy`: formats, results and the pull contract. It also holds
  multiplication and division by repeated addition (`Times`, `Quotient`),
  with lemmas tying them to `*`, `/` and `%`.
- `filter.dfy`: the strided single-pole recurrence shared by both filters.
  It covers uniqueness, channel independence and continuity across calls.
- `low_pass.dfy`, `high_pass.dfy`: the two filter nodes.
- `echo.dfy`: the delay line and timbre's chunked `echo` loop.
- `mixer.dfy`: the keyed source set and the mixing read.
- `tone.dfy`: the sine generator.
- `wav_decoder.dfy`: the decoder's cursor and the byte-to-sample conversion.
- `capture.dfy`: the capture source's queue, its drain loop and the device callback.
- `playback.dfy`: the output device callback.

Five behaviours of the Rust code are easy to miss, and the model keeps them:

- The mixer never clears its scratch vector before a later source reads
  into it. It only resizes it, so samples a source left unwritten, from an
  earlier source or an earlier call, are summed in (`Mixer.ReadSum`,
  `Mixer.StaleScratch`).
- The low-pass filter's coefficient depends on the channel count. It is
  `rc / (rc + dt)` for mono and `dt / (rc + dt)` for stereo
  (`LowPassFilter.Coefficient`). The high-pass filter uses `rc / (rc + dt)`
  for both.
- `Echo::new` takes the delay as a sample count, and the ring has exactly
  that many slots, whatever the channel count (`EchoEffect.New`).
- Each echo output is the decayed slot plus the input, so with decay 0 the
  output is the input, undelayed (`EchoEffect.NoDecayIsDry`).
- Both filters seed a read's first frame from scratch slot `written - 1` of
  that read's own count, not from the last frame the previous read wrote.
  Consecutive reads are one continuous stream only when they write the same
  count (`LowPassFilter.ReadContinuity`, `HighPassFilter.ReadContinuity`).
  After a read of one sample, a read of two seeds from zero padding
  (`LowPassFilter.UnequalCountsRestart`, `HighPassFilter.UnequalCountsRestart`).

## Model

| member | source | states |
|---|---|---|
| Core.GoodResult | src/core.rs:23-28 | `good(n)` has state Good and count n |
| Core.UnderrunResult | src/core.rs:30-35 | `underrun(n)` has state Underrun and count n |
| Core.FinishedResult | src/core.rs:37-42 | `finished(n)` has state Finished and count n |
| Core.FormatEquality | src/core.rs:3-7 | two formats are equal iff channel count and sample rate are both equal |
| Core.Resize | src/effects/basic_mixer.rs:64 | resizing keeps the old elements below the new length and pads with 0.0 |
| Mixer.New | src/effects/basic_mixer.rs:20-27 | a new mixer has no sources, an empty scratch vector, and the given format and gain |
| Mixer.AddSource | src/effects/basic_mixer.rs:29-34 | needs the source's format to equal the mixer's; the source goes in under a key not in use, the other sources and the rest of the state unchanged |
| Mixer.RemoveSource | src/effects/basic_mixer.rs:36-38 | exactly the given key is gone; every other key keeps its source; an unknown key changes nothing |
| Mixer.AddThenRemove | src/effects/basic_mixer.rs:29-38 | removing the key that adding returned restores the source set |
| Mixer.AddRemoveRead | src/effects/basic_mixer.rs:29-38 | after adding and removing a source the mixer reads exactly as before |
| Mixer.MaxCountIsMax | src/effects/basic_mixer.rs:57-73 | the running count is an upper bound of every source's count and equals one of them |
| Mixer.Add | src/effects/basic_mixer.rs:75-78 | the accumulation adds the scratch vector element by element over the whole length |
| Mixer.Gain | src/effects/basic_mixer.rs:81-83 | every sample is multiplied by the gain when one is set and left alone otherwise |
| Mixer.MixRestSum | src/effects/basic_mixer.rs:63-79 | the loop over the later sources adds each one's whole buffer to the sum |
| Mixer.MixRestCount | src/effects/basic_mixer.rs:63-73 | the loop's count is the maximum of the counts, and the scratch vector is what the last source left |
| Mixer.MixRestKeys | src/effects/basic_mixer.rs:63-68 | the loop's source map has exactly the keys it started with plus the keys it visited |
| Mixer.MixRestStates | src/effects/basic_mixer.rs:63-68 | each later source takes the state its own read returned; other sources are untouched |
| Mixer.Read | src/effects/basic_mixer.rs:46-90 | the output has the buffer's length, the result never says Finished and keeps the Good-means-full contract; with no sources the output is all 0.0, the result is Good(len) and the mixer is unchanged; a mixer whose keys all lie below its key counter still has that property after a read, so sources can be added |
| Mixer.ReadSum | src/effects/basic_mixer.rs:55-83 | output[i] is the gained sum of the first source's buffer[i] and every later source's whole scratch vector at i |
| Mixer.ReadCount | src/effects/basic_mixer.rs:57-89 | the count is the maximum of the per-source counts (Good counting as the length), reported as Underrun below the length and Good otherwise; the scratch vector is what the last source left |
| Mixer.ReadStates | src/effects/basic_mixer.rs:55-79 | the source keys are unchanged and every source holds the state its read returned |
| Mixer.UnderrunIffAllShort | src/effects/basic_mixer.rs:85-89 | the mixer underruns exactly when every source wrote less than the buffer, and is Good otherwise |
| Mixer.SingleSource | src/effects/basic_mixer.rs:55-89 | with one source the output is that source's output times the gain, with that source's count |
| Mixer.CountBound | src/effects/basic_mixer.rs:57-73 | if no source reports more than the length, the mixer's count is at most the length and equals the maximum |
| Mixer.StaleScratch | src/effects/basic_mixer.rs:63-79 | two sources that write nothing still produce the caller's old sample plus the scratch value left from the previous call, reported as Underrun(0) |
| EchoEffect.New | src/effects/echo.rs:15-25 | a new echo has a zeroed ring of `delay` slots, position 0, and the given source, delay and decay |
| EchoEffect.SlotNext | src/effects/echo.rs:77 | advancing the cursor one slot is adding one modulo the delay |
| EchoEffect.SlotDistinct | src/effects/echo.rs:66-78 | fewer than `delay` steps apart the cursor is on different slots |
| EchoEffect.RunPosition | src/effects/echo.rs:66-78 | after n samples the cursor is (position + n) mod delay |
| EchoEffect.RunSamples | src/effects/echo.rs:66-78 | samples at or past n are untouched, and sample j is final once step j is done |
| EchoEffect.RunRing | src/effects/echo.rs:67-76 | after n samples each slot holds the last output that passed it, or its old value if none did |
| EchoEffect.RunOutput | src/effects/echo.rs:66-78 | out[i] is the slot's old value times decay plus in[i]; the slot's old value is out[i - delay], or the ring's value on the first turn |
| EchoEffect.EchoChunk | src/effects/echo.rs:67-74 | one chunk of `count` samples from the cursor, not passing the ring's end, is exactly `count` more steps of the delay line, and the cursor lands on (position + count) mod delay |
| EchoEffect.EchoInPlace | src/effects/echo.rs:57-79 | the chunked loop (chunks of at most `delay - position` samples) computes exactly the sample-by-sample delay line, ring and cursor |
| EchoEffect.Read | src/effects/echo.rs:33-54 | the upstream's result is returned unchanged; delay and decay are kept; nothing past `written` changes; with nothing written nothing changes; otherwise the cursor moves by `written` modulo the delay, the output is the feedback echo, and the ring holds the latest outputs |
| EchoEffect.NoDecayIsDry | src/effects/echo.rs:71-74 | with decay 0 the output equals the upstream's samples |
| Filter.Run | src/effects/low_pass.rs:92-95 | the filter loop's output satisfies the recurrence at every index |
| Filter.Unique | src/effects/low_pass.rs:92-95 | the recurrence has exactly one solution for given inputs and seeds |
| Filter.RunIsTheSolution | src/effects/high_pass.rs:89-92 | a buffer satisfies the recurrence iff it is the filter loop's output |
| Filter.LowPassIgnoresInputSeeds | src/effects/low_pass.rs:92-94 | the low-pass recurrence never reads previous inputs, only previous outputs |
| Filter.ChannelFiltered | src/effects/low_pass.rs:106-110 | each channel of an interleaved output is that channel's input filtered on its own, from its own seeds |
| Filter.ChannelsIndependent | src/effects/high_pass.rs:112-116 | filtering interleaved stereo is filtering each channel separately with stride 2 |
| Filter.Continuity | src/effects/low_pass.rs:92-96 | two calls seeded from the previous call's last frame filter the concatenation in one go |
| LowPassFilter.New | src/effects/low_pass.rs:33-37 | a new filter has an empty scratch vector, a nonzero time constant, and reports the cutoff it was given |
| LowPassFilter.SetCutoff | src/effects/low_pass.rs:39-45 | after setting a nonzero cutoff the filter reports that cutoff, with nothing else changed |
| LowPassFilter.Cutoff | src/effects/low_pass.rs:43-45 | the reported cutoff is nonzero and is the inverse of the time constant: turning it back into a time constant gives rc again |
| LowPassFilter.SetCutoffToCurrent | src/effects/low_pass.rs:39-45 | setting the cutoff the filter already reports leaves it unchanged |
| LowPassFilter.Read | src/effects/low_pass.rs:49-112 | the upstream result is returned unchanged and nothing past `written` changes; with nothing written the scratch vector is untouched; otherwise the written prefix is the low-pass of the input, seeded per channel from the scratch vector's last frame below `written`, with coefficient rc/(rc+dt) for mono and dt/(rc+dt) for stereo, and the scratch vector keeps the outputs |
| LowPassFilter.ReadContinuity | src/effects/low_pass.rs:53-96 | two reads of equal counts filter their inputs as one continuous stream |
| LowPassFilter.UnequalCountsRestart | src/effects/low_pass.rs:53-97 | mono at a = 1/2, reads of one then two ones give 1/2 then 1/2, 3/4: the second read seeds from zero padding, while the continuous stream gives 1/2, 3/4, 7/8 |
| LowPassFilter.OneSampleRead | src/effects/low_pass.rs:53-97 | a read of one sample from a fresh mono filter at a = 1/2 outputs 1/2 and leaves the scratch vector [1/2, 0] |
| LowPassFilter.TwoSampleRead | src/effects/low_pass.rs:53-97 | a read of two ones with scratch [1/2, 0] seeds from slot 1 and outputs 1/2, 3/4 |
| LowPassFilter.HalfStepScenario | src/effects/low_pass.rs:86-97 | mono at 8 Hz with rc == dt: two reads of four ones from a fresh filter give 1/2, 3/4, … 255/256 |
| HighPassFilter.New | src/effects/high_pass.rs:15-26 | a new filter on any mono or stereo format, at any sample rate, starts with prev = [0, 0], an empty scratch vector, the upstream's format and rc = 1/(2π·cutoff) |
| HighPassFilter.NextPrev | src/effects/high_pass.rs:87-110 | the remembered inputs are [last, 0] for mono and the last two inputs for stereo |
| HighPassFilter.Read | src/effects/high_pass.rs:34-73 | Good counts as the whole buffer and the upstream result is returned; with nothing written it returns early, leaving prev and the scratch vector alone; otherwise the written prefix is the high-pass with a = rc/(rc+dt), seeded from the scratch vector's last frame and from prev; prev becomes the last input frame; nothing past `written` changes |
| HighPassFilter.ZeroRateEmptyRead | src/effects/high_pass.rs:44-46 | a mono filter at sample rate 0 can be built and read while nothing is written: the upstream's result and samples come back, prev and the scratch vector untouched |
| HighPassFilter.UnequalCountsRestart | src/effects/high_pass.rs:38-96 | mono at a = 1/2, reads of one then two ones give 1/2 then 0, 0: prev carries the input 1 but the output seed is the zero padding, while the continuous stream gives 1/2, 1/4, 1/8 |
| HighPassFilter.OneSampleRead | src/effects/high_pass.rs:38-96 | a read of one sample from a fresh mono filter at a = 1/2 outputs 1/2, leaves the scratch vector [1/2, 0] and prev [1, 0] |
| HighPassFilter.TwoSampleRead | src/effects/high_pass.rs:38-96 | a read of two ones with scratch [1/2, 0] and prev [1, 0] outputs 0, 0 |
| HighPassFilter.ReadContinuity | src/effects/high_pass.rs:38-73 | two reads of equal counts filter their inputs as one continuous stream, prev carrying the input side |
| Tone.New | src/generators/tone.rs:11-17 | a new wave starts at phase 0 with the given amplitude and frequency |
| Tone.WholeFrames | src/generators/tone.rs:28-34 | the whole frames fit in the buffer with fewer than one frame of samples left over |
| Tone.FramesIsDivision | src/generators/tone.rs:28-29 | the frame count is len / channels and the whole frames take len - len % channels samples |
| Tone.PhaseIsLinear | src/generators/tone.rs:25-36 | after i frames the phase is the starting phase plus i · 2π·frequency/sample_rate |
| Tone.FillFrame | src/generators/tone.rs:33-35 | the inner loop writes one value into the frame's channels and nothing else |
| Tone.Read | src/generators/tone.rs:21-40 | the result is Good(len); every sample of whole frame i is amplitude·sin(phase_i); samples past the last whole frame are untouched; the phase advances by frames increments |
| Tone.PhaseContinues | src/generators/tone.rs:36 | a read that starts at the phase where the last one stopped continues its phases |
| Tone.FrameValueContinues | src/generators/tone.rs:31-37 | frame k of the next read is frame frames + k of a read from the old phase |
| WavDecoding.New | src/decoders/wav_decoder.rs:49-53 | a loaded decoder starts at position 0 |
| WavDecoding.Read | src/decoders/wav_decoder.rs:91-106 | needs the decoder's format; the written prefix is exactly the data between the old and the new position, the rest of the buffer is untouched; Good(len) iff len ≤ remaining; otherwise Finished(remaining) with the position at the end; never Underrun; the position never passes the end |
| WavDecoding.Replay | src/decoders/wav_decoder.rs:95-104 | any run of reads keeps the position within the data |
| WavDecoding.ReplayIsData | src/decoders/wav_decoder.rs:95-104 | the written prefixes of successive reads are the data from the start position to the current one, and all of it once Finished was returned |
| WavDecoding.Exhausted | src/decoders/wav_decoder.rs:95-104 | reads at the end write nothing and change nothing |
| WavDecoding.AtEnd | src/decoders/wav_decoder.rs:95-104 | at the end a non-empty buffer reads Finished(0) and an empty one Good(0) |
| WavDecoding.WholeFile | src/decoders/wav_decoder.rs:95-104 | decoding from a fresh decoder until Finished hands out the whole data in order |
| WavDecoding.BigIsReversedLittle | src/decoders/wav_decoder.rs:119-125 | big-endian bytes are the reversed bytes read little-endian |
| WavDecoding.ChunksExactLength | src/decoders/wav_decoder.rs:115 | cutting into chunks of w bytes gives one chunk per whole w bytes |
| WavDecoding.ChunkAt | src/decoders/wav_decoder.rs:115 | chunk k is bytes k·w up to (k+1)·w |
| WavDecoding.ConvertAsWritten | src/decoders/wav_decoder.rs:110-191 | the conversion as written succeeds iff the length is a multiple of its arm's guard (4 for S16MSB, the sample width otherwise); whatever passes is whole samples and decodes as the corrected conversion does |
| WavDecoding.ConvertWholeSamples | src/decoders/wav_decoder.rs:110-191 | a payload converts iff its length is a multiple of the sample width; it then gives len / w samples, sample k decoded from bytes k·w up to (k+1)·w alone |
| WavDecoding.MsbIsReversedLsb | src/decoders/wav_decoder.rs:112-185 | each big-endian format decodes a chunk as its little-endian twin decodes the reversed chunk |
| WavDecoding.UnsignedSilence | src/decoders/wav_decoder.rs:166-189 | byte 0x80 (U8) and word 0x8000 (U16, either byte order) decode to 0 |
| WavDecoding.AsWrittenAgrees | src/decoders/wav_decoder.rs:153-161 | the conversion as written agrees with the intended one wherever it succeeds, and differs only for big-endian 16-bit payloads of length 2 mod 4 |
| WavDecoding.OneSampleRejected | src/decoders/wav_decoder.rs:153-161 | one big-endian 16-bit sample fails the as-written assertion but decodes to 1/32767 under the intended one |
| Capture.Callback | src/drivers/sdl2_input.rs:47-49 | the captured samples join the back of the queue in order |
| Capture.Drain | src/drivers/sdl2_input.rs:173-190 | min(len, queue) samples are written, the oldest first, and dropped from the queue; Good(len) iff the queue held len, else Underrun(queue length) with the rest of the buffer untouched; never Finished |
| Capture.Read | src/drivers/sdl2_input.rs:173-190 | the source's pop-front loop computes exactly the drain |
| Capture.Fifo | src/drivers/sdl2_input.rs:48-187 | over any interleaving of callbacks and reads, what was written followed by what is still queued is what was queued and captured |
| Capture.WrittenIsPrefix | src/drivers/sdl2_input.rs:48-187 | the reads reproduce the captured sequence in order: what they wrote is a prefix of it |
| Playback.Callback | src/drivers/sdl2_output.rs:17-37 | with no source the buffer is all silence; with one there is exactly one read in the device format, the samples below its count are kept and the rest silenced |
| Playback.PrefixThenSilence | src/drivers/sdl2_output.rs:28-31 | the played buffer is the read's written prefix followed by silence |
| Playback.StateIgnored | src/drivers/sdl2_output.rs:24-26 | the read's state has no effect on what is played, only its samples and count do |
| Playback.FullReadPlays | src/drivers/sdl2_output.rs:28-31 | a read that fills the buffer is played unchanged |

## Left out

- SDL device opening and format negotiation are foreign library calls and are not modelled. This covers `Sdl2Input`/`Sdl2Output` construction, `with_format`, `pause`, `resume` and `format`.
- `WavDecoder::new` and `from_file` call SDL's WAV loader, so they are not modelled. A decoder is built from already decoded data (`WavDecoding.New`), and the conversion is modelled on its own (`WavDecoding.Convert`).
- `Arc<Mutex<..>>` sharing, `IntoShared` and the locks inside reads are concurrency. Each upstream is an exclusively owned state threaded through a step function.
- f32 arithmetic and rounding are not modelled; samples, phases and coefficients are exact reals.
- `sin` and the reinterpretation of 32 bits as an f32 (`from_le_bytes`/`from_be_bytes` on f32) are function parameters.
- `i32::MAX as f32` rounds to 2^31 in f32, so the 32-bit divisor is 2147483648. `i16::MAX` and `i8::MAX` are exact.
- `tracing` spans and the `warn!` on underrun are logging. The warning has no effect on the buffer (`Playback.StateIgnored`).
- The programs in `src/main.rs`, `examples/` and `benches/` do I/O and use a stale API, so they are not modelled.
- `src/error.rs` (an error enum), `src/sdl_util.rs` (a cast) and the module wiring files hold no logic to model.
- The `format()`/`request_format()` accessors are not modelled. The format is passed alongside each read, and nodes that assert on it take it as a precondition.
- DenseSlotMap internals are not modelled. Sources are a map from fresh naturals, and the order a read visits them in is a parameter that covers each source exactly once. Key reuse with generations is not modelled.
- Infinite time constants and coefficients are not modelled, because exact reals have none. A zero cutoff makes rc infinite in f32, so the model requires a nonzero cutoff. Negative cutoffs are accepted, as in the Rust code.
- A filter read that filters anything needs a positive sample rate, since a zero rate makes dt infinite. It also needs rc + dt ≠ 0, which fails only for the negative cutoff −sample_rate/2π and would make the coefficient's denominator zero. Reads that write nothing need neither.
- Tone.Read: a zero channel count divides by zero in the Rust code, so the model requires channels > 0. A zero sample rate gives an infinite increment in f32, which exact reals cannot represent, so the model also requires a positive sample rate.
- The filters' `assert!(!samples.is_empty() && …)` and `buffer.len() >= samples.len()` hold by construction, since they run only with written > 0 on equally long slices. The stereo evenness assertion and the channel-count panic are preconditions (`CanRead`).
- EchoEffect.Read: `Echo::new` accepts a delay of 0, but a read that writes anything then takes a remainder by zero. The model requires delay > 0 whenever something is written (`EchoEffect.CanRead`).
- LowPassFilter.ReadContinuity: continuity is stated only for two reads that write the same count, because the Rust code seeds each read from scratch slot `written - 1` of the new count; for unequal counts the stream restarts from a stale or zero slot (`LowPassFilter.UnequalCountsRestart`).
- HighPassFilter.ReadContinuity: the same restriction to equal counts, for the same reason; `prev` still carries the input side across any counts (`HighPassFilter.UnequalCountsRestart`).
- Nodes are not composed into graphs inside the model: each node is proved against an arbitrary total upstream, and a modelled node becomes an upstream only through a wrapper that meets its read's precondition.
- Capture.Fifo: reads in the replay are into zero-filled buffers. The written prefix does not depend on the buffer's old contents (`Capture.Drain`).

## Findings

| source | as written | input that shows it | evidently intended | confidence | as-written member | corrected member |
|---|---|---|---|---|---|---|
| src/decoders/wav_decoder.rs:154 | the S16MSB arm asserts the byte count is a multiple of `size_of::<f32>()` (4) | the two bytes `[0x00, 0x01]`, one whole big-endian 16-bit sample, fail the assertion (`WavDecoding.OneSampleRejected`) | a multiple of `size_of::<i16>()` (2), as the S16LSB arm checks | not executed | WavDecoding.ConvertAsWritten | WavDecoding.ConvertWholeSamples |

=== FILE: capture.dfy ===
/** The capture source: samples a capture device delivers are queued by the
    device callback and drained, oldest first, by `read`.

    The device and the lock around the shared queue are not modelled: the
    queue is part of the source's state, and a callback is a step that
    appends to it.
 */
module Capture {
  import opened Core

  datatype CaptureSource = CaptureSource(format: AudioFormat, queue: seq<real>)

  /** The device callback: the captured samples join the back of the queue. */
  function Callback(src: CaptureSource, captured: seq<real>): (r: CaptureSource)
    ensures r.format == src.format
    ensures |r.queue| == |src.queue| + |captured|
    ensures r.queue[..|src.queue|] == src.queue && r.queue[|src.queue|..] == captured
  {
    src.(queue := src.queue + captured)
  }

  /** What a read does: the oldest `min(len, |queue|)` samples are taken
      off the queue into the front of the buffer. */
  function Drain(src: CaptureSource, fmt: AudioFormat, samples: seq<real>): (r: Pulled<CaptureSource>)
    requires src.format == fmt
    ensures var w := Min(|samples|, |src.queue|);
      && r.result.read == w
      && |r.samples| == |samples|
      && r.samples[..w] == src.queue[..w]
      && (forall i :: w <= i < |samples| ==> r.samples[i] == samples[i])
      && r.source == src.(queue := src.queue[w..])
    ensures r.result.state == Good <==> |samples| <= |src.queue|
    ensures r.result.state != Finished
    ensures r.result.state == Good ==> r.result.read == |samples|
  {
    var n, q := |samples|, |src.queue|;
    if n <= q then
      Pulled(src.(queue := src.queue[n..]), src.queue[..n], GoodResult(n))
    else
      assert (src.queue + samples[q..])[..q] == src.queue[..q];
      Pulled(src.(queue := []), src.queue + samples[q..], UnderrunResult(q))
  }

  /** timbre's read loop: one sample off the front of the queue per slot,
      returning `Underrun(i)` at the first slot the queue cannot fill. A
      format other than the capture source's fails its assertion. */
  method Read(src: CaptureSource, fmt: AudioFormat, samples: seq<real>)
    returns (src': CaptureSource, out: seq<real>, result: ReadResult)
    requires src.format == fmt
    ensures Pulled(src', out, result) == Drain(src, fmt, samples)
  {
    src' := src;
    out := samples;
    var i := 0;
    while i < |samples|
      invariant i <= |samples| && i <= |src.queue| && |out| == |samples|
      invariant src' == src.(queue := src.queue[i..])
      invariant out[..i] == src.queue[..i] && out[i..] == samples[i..]
    {
      if |src'.queue| == 0 {
        result := UnderrunResult(i);
        assert out == src.queue + samples[i..];
        return;
      }
      out := out[i := src'.queue[0]];
      src' := src'.(queue := src'.queue[1..]);
      assert src.queue[i..][1..] == src.queue[i + 1..];
      i := i + 1;
    }
    result := GoodResult(|samples|);
    assert out == src.queue[..i];
  }

  /** Events on a capture source: a device callback or a read into a
      buffer of a given length. */
  datatype Event = Captured(samples: seq<real>) | Requested(len: nat)

  /** The state after `events`, what the reads wrote one after another,
      and what the callbacks delivered one after another. */
  datatype History = History(source: CaptureSource, written: seq<real>, delivered: seq<real>)

  function Replay(src: CaptureSource, events: seq<Event>): (h: History)
    ensures h.source.format == src.format
    decreases |events|
  {
    if |events| == 0 then History(src, [], [])
    else
      match events[0]
      case Captured(s) =>
        var rest := Replay(Callback(src, s), events[1..]);
        History(rest.source, rest.written, s + rest.delivered)
      case Requested(n) =>
        var r := Drain(src, src.format, Zeros(n));
        var rest := Replay(r.source, events[1..]);
        History(rest.source, r.samples[..r.result.read] + rest.written, rest.delivered)
  }

  /** Nothing is lost, duplicated or reordered, however callbacks and reads
      interleave: the reads hand out the queued and captured samples in
      order, and whatever they have not handed out is still queued. */
  lemma {:induction false} Fifo(src: CaptureSource, events: seq<Event>)
    ensures var h := Replay(src, events);
      h.written + h.source.queue == src.queue + h.delivered
    decreases |events|
  {
    if |events| > 0 {
      match events[0]
      case Captured(s) =>
        Fifo(Callback(src, s), events[1..]);
        FifoCaptured(src, s, Replay(Callback(src, s), events[1..]));
      case Requested(n) =>
        var r := Drain(src, src.format, Zeros(n));
        Fifo(r.source, events[1..]);
        FifoRequested(src, r, Replay(r.source, events[1..]));
    }
  }

  /** A callback first: its samples head what the later events deliver. */
  lemma FifoCaptured(src: CaptureSource, s: seq<real>, rest: History)
    requires rest.written + rest.source.queue == Callback(src, s).queue + rest.delivered
    ensures rest.written + rest.source.queue == src.queue + (s + rest.delivered)
  {
    assert Callback(src, s).queue == src.queue + s;
  }

  /** A read first: what it wrote heads what the later reads write. */
  lemma FifoRequested(src: CaptureSource, r: Pulled<CaptureSource>, rest: History)
    requires r.result.read <= |r.samples| && r.result.read <= |src.queue|
    requires r.samples[..r.result.read] == src.queue[..r.result.read]
    requires r.source.queue == src.queue[r.result.read..]
    requires rest.written + rest.source.queue == r.source.queue + rest.delivered
    ensures (r.samples[..r.result.read] + rest.written) + rest.source.queue == src.queue + rest.delivered
  {
    var w := r.result.read;
    var head := r.samples[..w];
    calc {
      (head + rest.written) + rest.source.queue;
      head + (rest.written + rest.source.queue);
      head + (src.queue[w..] + rest.delivered);
      (src.queue[..w] + src.queue[w..]) + rest.delivered;
      { assert src.queue[..w] + src.queue[w..] == src.queue; }
      src.queue + rest.delivered;
    }
  }

  /** So what the reads wrote is always a prefix of what was queued and
      captured, in the order it arrived. */
  lemma WrittenIsPrefix(src: CaptureSource, events: seq<Event>)
    ensures var h := Replay(src, events);
      var all := src.queue + h.delivered;
      |h.written| <= |all| && h.written == all[..|h.written|]
  {
    Fifo(src, events);
    var h := Replay(src, events);
    assert (h.written + h.source.queue)[..|h.written|] == h.written;
  }
}

=== FILE: core.dfy ===
/** Formats, read results and the pull contract shared by every node of the
    audio graph.

    Samples are exact reals: f32 rounding is not modelled. A node reads from
    an upstream source through a step function handed to its own `read`;
    the upstream's state type is a type parameter, so any node (or any
    abstract producer) can sit upstream.
 */
module Core {

  /** Rust's `u32`. */
  type U32 = x: int | 0 <= x < 0x1_0000_0000

  datatype Option<+T> = None | Some(value: T)

  /** Channel count and sample rate of a stream. */
  datatype AudioFormat = AudioFormat(channels: U32, sampleRate: U32)

  datatype StreamState = Good | Underrun | Finished

  /** The outcome of one pull: a state and the number of samples written at
      the front of the buffer. */
  datatype ReadResult = ReadResult(state: StreamState, read: nat)

  function GoodResult(read: nat): (r: ReadResult)
    ensures r.state == Good && r.read == read
  {
    ReadResult(Good, read)
  }

  function UnderrunResult(read: nat): (r: ReadResult)
    ensures r.state == Underrun && r.read == read
  {
    ReadResult(Underrun, read)
  }

  function FinishedResult(read: nat): (r: ReadResult)
    ensures r.state == Finished && r.read == read
  {
    ReadResult(Finished, read)
  }

  /** Format equality is field-wise. */
  lemma FormatEquality(f: AudioFormat, g: AudioFormat)
    ensures f == g <==> f.channels == g.channels && f.sampleRate == g.sampleRate
  {
  }

  /** The older result type carried no count with `Good`; the nodes written
      against it treat `Good` as "the whole buffer". */
  function Written(r: ReadResult, len: nat): nat
  {
    if r.state == Good then len else r.read
  }

  /** What every node promises about its result: no more than the buffer was
      written, and `Good` means the whole buffer. */
  predicate Conforms(r: ReadResult, len: nat)
  {
    r.read <= len && (r.state == Good ==> r.read == len)
  }

  /** The answer of one pull: the source's next state, the buffer it handed
      back and its result. */
  datatype Pulled<S> = Pulled(source: S, samples: seq<real>, result: ReadResult)

  /** A source's `read`: its state, the format and the caller's buffer in,
      its answer out. */
  type Reader<!S> = (S, AudioFormat, seq<real>) -> Pulled<S>

  /** A slice handed to a source keeps its length. */
  ghost predicate KeepsLength<S(!new)>(read: Reader<S>)
  {
    forall s: S, f: AudioFormat, b: seq<real> :: |read(s, f, b).samples| == |b|
  }

  /** `n` zero samples: silence. */
  function Zeros(n: nat): (z: seq<real>)
    ensures |z| == n && forall i :: 0 <= i < n ==> z[i] == 0.0
  {
    seq(n, _ => 0.0)
  }

  /** The value at `i` of a scratch vector grown with zeros. */
  function ScratchAt(v: seq<real>, i: nat): real
  {
    if i < |v| then v[i] else 0.0
  }

  /** `Vec::resize(n, 0.0)`: truncate, or extend with zeros. */
  function Resize(v: seq<real>, n: nat): (r: seq<real>)
    ensures |r| == n
    ensures forall i :: 0 <= i < n ==> r[i] == ScratchAt(v, i)
  {
    if n <= |v| then v[..n] else v + Zeros(n - |v|)
  }

  function Max(a: nat, b: nat): nat
  {
    if a < b then b else a
  }

  function Min(a: nat, b: nat): nat
  {
    if a < b then a else b
  }

  /** `std::f32::consts::PI`, exactly. */
  const Pi: real := 3.1415927410125732421875

  // ---------------------------------------------------------------------
  // Integer division

  lemma MulMono(k: int, d: int)
    requires k >= 1 && d > 0
    ensures k * d >= d
  {
    if k > 1 {
      MulMono(k - 1, d);
      assert k * d == (k - 1) * d + d;
    }
  }

  /** Euclidean division has one quotient and one remainder. */
  lemma ModUnique(x: int, q: int, r: int, d: int)
    requires d > 0 && 0 <= r < d && x == q * d + r
    ensures x % d == r && x / d == q
  {
    var q', r' := x / d, x % d;
    assert x == q' * d + r';
    if q' < q {
      MulMono(q - q', d);
    } else if q' > q {
      MulMono(q' - q, d);
    }
  }

  // Multiplication and division by repeated addition and subtraction.
  // Recursive definitions keep the solver away from nonlinear arithmetic;
  // the lemmas relate them to `*`, `/` and `%`.

  /** `i * c`, as `i` additions of `c`. */
  function Times(i: nat, c: nat): nat
  {
    if i == 0 then 0 else Times(i - 1, c) + c
  }

  /** `j / c`, as the number of times `c` can be taken from `j`. */
  function Quotient(j: nat, c: nat): nat
    requires c > 0
  {
    if j < c then 0 else 1 + Quotient(j - c, c)
  }

  lemma {:induction false} TimesIsProduct(i: nat, c: nat)
    ensures Times(i, c) == i * c
  {
    if i > 0 {
      TimesIsProduct(i - 1, c);
    }
  }

  lemma {:induction false} TimesMono(a: nat, b: nat, c: nat)
    requires a <= b
    ensures Times(a, c) <= Times(b, c)
  {
    if a < b {
      TimesMono(a, b - 1, c);
    }
  }

  /** `Quotient(n, c)` blocks of `c` fit in `n`, and one more does not. */
  lemma {:induction false} QuotientFits(n: nat, c: nat)
    requires c > 0
    ensures Times(Quotient(n, c), c) <= n < Times(Quotient(n, c), c) + c
  {
    if n >= c {
      QuotientFits(n - c, c);
    }
  }

  /** Element `ch` of block `i` is in block `i`. */
  lemma {:induction false} QuotientTimes(i: nat, ch: nat, c: nat)
    requires ch < c
    ensures Quotient(Times(i, c) + ch, c) == i
  {
    if i > 0 {
      QuotientTimes(i - 1, ch, c);
    }
  }

  lemma QuotientIsDivision(n: nat, c: nat)
    requires c > 0
    ensures Quotient(n, c) == n / c
    ensures Times(Quotient(n, c), c) == n - n % c
  {
    var q := Quotient(n, c);
    QuotientFits(n, c);
    TimesIsProduct(q, c);
    ModUnique(n, q, n - Times(q, c), c);
  }
}

=== FILE: echo.dfy ===
/** `Echo`: a feedback delay line over one upstream source.

    The delay line is a circular buffer of `delay` samples with a cursor.
    Every written sample `s` turns the slot under the cursor from `b` into
    `b * decay + s`, replaces `s` with that value, and moves the cursor one
    slot on. Read back over a whole stream this is the comb filter
    `out[i] == decay * out[i - delay] + in[i]`.
 */
module EchoEffect {
  import opened Core

  datatype Echo<S> = Echo(source: S, delay: nat, decay: real, buffer: seq<real>, position: nat)

  /** The buffer holds `delay` slots and the cursor stays on one of them. timbre
      does not reject `delay == 0`; such an echo can only take reads
      that write nothing. */
  predicate Valid<S>(e: Echo<S>)
  {
    && |e.buffer| == e.delay
    && (if e.delay == 0 then e.position == 0 else e.position < e.delay)
  }

  function New<S>(source: S, delay: nat, decay: real): (e: Echo<S>)
    ensures Valid(e)
    ensures e.source == source && e.delay == delay && e.decay == decay && e.position == 0
    ensures |e.buffer| == delay && forall i :: 0 <= i < delay ==> e.buffer[i] == 0.0
  {
    Echo(source, delay, decay, Zeros(delay), 0)
  }

  // ---------------------------------------------------------------------
  // Slots of the ring

  /** The slot the cursor is on `i` samples after starting on slot `p`. */
  function Slot(p: nat, i: nat, d: nat): nat
    requires d > 0
  {
    (p + i) % d
  }

  lemma SlotNext(p: nat, i: nat, d: nat)
    requires d > 0
    ensures (Slot(p, i, d) + 1) % d == Slot(p, i + 1, d)
  {
    var q, r := (p + i) / d, (p + i) % d;
    assert p + i == q * d + r;
    if r + 1 < d {
      ModUnique(p + i + 1, q, r + 1, d);
      ModUnique(r + 1, 0, r + 1, d);
    } else {
      ModUnique(p + i + 1, q + 1, 0, d);
      ModUnique(r + 1, 1, 0, d);
    }
  }

  /** A whole turn of the ring comes back to the same slot. */
  lemma SlotTurn(p: nat, i: nat, d: nat)
    requires d > 0 && i >= d
    ensures Slot(p, i - d, d) == Slot(p, i, d)
  {
    var q, r := (p + i - d) / d, (p + i - d) % d;
    assert p + i - d == q * d + r;
    ModUnique(p + i, q + 1, r, d);
  }

  /** Less than a turn apart, two cursor positions are different slots. */
  lemma SlotDistinct(p: nat, j: nat, i: nat, d: nat)
    requires d > 0 && j < i && i - j < d
    ensures Slot(p, j, d) != Slot(p, i, d)
  {
    var q, r := (p + j) / d, (p + j) % d;
    assert p + j == q * d + r;
    var k := i - j;
    if r + k < d {
      ModUnique(p + i, q, r + k, d);
    } else {
      ModUnique(p + i, q + 1, r + k - d, d);
    }
  }

  // ---------------------------------------------------------------------
  // The delay line, one sample at a time

  /** The delay line, the caller's samples and the cursor. */
  datatype Line = Line(buffer: seq<real>, samples: seq<real>, position: nat)

  predicate Fits(l: Line)
  {
    0 < |l.buffer| && l.position < |l.buffer|
  }

  /** A slot holding `slot` meets input `x`: the decayed slot plus the
      input, which both the slot and the output then hold. */
  function Feedback(slot: real, decay: real, x: real): real
  {
    slot * decay + x
  }

  /** Sample `i` meets the slot under the cursor. */
  function Step(l: Line, i: nat, decay: real): (r: Line)
    requires Fits(l) && i < |l.samples|
    ensures Fits(r) && |r.buffer| == |l.buffer| && |r.samples| == |l.samples|
  {
    var v := Feedback(l.buffer[l.position], decay, l.samples[i]);
    Line(l.buffer[l.position := v], l.samples[i := v], (l.position + 1) % |l.buffer|)
  }

  /** The first `n` samples, in order. */
  function Run(l: Line, n: nat, decay: real): (r: Line)
    requires Fits(l) && n <= |l.samples|
    ensures Fits(r) && |r.buffer| == |l.buffer| && |r.samples| == |l.samples|
    decreases n
  {
    if n == 0 then l else Step(Run(l, n - 1, decay), n - 1, decay)
  }

  /** `y` is the echo of `x` over its first `n` samples, for a ring that
      held `ring` with the cursor on slot `pos`: each output is its input
      plus the decayed output one turn earlier, or in the first turn the
      decayed slot it met. */
  ghost predicate IsEchoed(x: seq<real>, y: seq<real>, n: nat, ring: seq<real>, pos: nat, decay: real)
  {
    && n <= |x| && n <= |y| && 0 < |ring|
    && forall i :: 0 <= i < n ==> y[i] == Feedback(Earlier(y, ring, pos, i), decay, x[i])
  }

  /** What sample `i` meets in the ring: the output a full turn back, or in
      the first turn the slot's original contents. */
  function Earlier(y: seq<real>, ring: seq<real>, pos: nat, i: nat): real
    requires 0 < |ring| && i < |y|
  {
    if i >= |ring| then y[i - |ring|] else ring[Slot(pos, i, |ring|)]
  }

  /** After `t` samples `y` from slot `pos`, the ring `ring` holds the last
      outputs in the slots they were written to and its earlier contents
      `ring0` in the slots not reached yet. */
  ghost predicate RingHolds(ring0: seq<real>, ring: seq<real>, y: seq<real>, t: nat, pos: nat)
  {
    && 0 < |ring0| == |ring| && t <= |y|
    && (forall j :: 0 <= j < t && t - j <= |ring| ==> ring[Slot(pos, j, |ring|)] == y[j])
    && (forall j :: t <= j < |ring| ==> ring[Slot(pos, j, |ring|)] == ring0[Slot(pos, j, |ring|)])
  }

  /** After `n` samples the cursor has moved `n` slots around the ring. */
  lemma {:induction false} RunPosition(l: Line, n: nat, decay: real)
    requires Fits(l) && n <= |l.samples|
    ensures Run(l, n, decay).position == Slot(l.position, n, |l.buffer|)
  {
    var d := |l.buffer|;
    if n == 0 {
      ModUnique(l.position, 0, l.position, d);
    } else {
      RunPosition(l, n - 1, decay);
      SlotNext(l.position, n - 1, d);
    }
  }

  /** Sample `j` is written at step `j` and never again; samples from `n`
      on are not touched. */
  lemma {:induction false} RunSamples(l: Line, n: nat, decay: real)
    requires Fits(l) && n <= |l.samples|
    ensures forall j :: n <= j < |l.samples| ==> Run(l, n, decay).samples[j] == l.samples[j]
    ensures forall j :: 0 <= j < n ==> Run(l, n, decay).samples[j] == Run(l, j + 1, decay).samples[j]
  {
    if n > 0 {
      RunSamples(l, n - 1, decay);
    }
  }

  /** What the ring holds after `t` samples: the last `d` outputs in the
      slots they were written to, and the original contents in the slots
      not reached yet. */
  lemma {:induction false} RunRing(l: Line, t: nat, decay: real)
    requires Fits(l) && t <= |l.samples|
    ensures var r := Run(l, t, decay); RingHolds(l.buffer, r.buffer, r.samples, t, l.position)
  {
    var d, p := |l.buffer|, l.position;
    if t > 0 {
      var s := t - 1;
      RunRing(l, s, decay);
      RunPosition(l, s, decay);
      var before, after := Run(l, s, decay), Run(l, t, decay);
      assert after == Step(before, s, decay);
      forall j | 0 <= j < t && t - j <= d
        ensures after.buffer[Slot(p, j, d)] == after.samples[j]
      {
        if j < s {
          SlotDistinct(p, j, s, d);
        }
      }
      forall j | t <= j < d
        ensures after.buffer[Slot(p, j, d)] == l.buffer[Slot(p, j, d)]
      {
        SlotDistinct(p, s, j, d);
      }
    }
  }

  /** Every output sample is the new input plus the decayed value of the
      slot it met: a full turn back its own earlier output, or, in the
      first turn, what the ring held before. */
  lemma RunOutput(l: Line, n: nat, decay: real)
    requires Fits(l) && n <= |l.samples|
    ensures IsEchoed(l.samples, Run(l, n, decay).samples, n, l.buffer, l.position, decay)
  {
    var r := Run(l, n, decay);
    forall i | 0 <= i < n
      ensures r.samples[i] == Feedback(Earlier(r.samples, l.buffer, l.position, i), decay, l.samples[i])
    {
      RunOutputAt(l, n, i, decay);
    }
  }

  lemma RunOutputAt(l: Line, n: nat, i: nat, decay: real)
    requires Fits(l) && i < n <= |l.samples|
    ensures var r := Run(l, n, decay);
      r.samples[i] == Feedback(Earlier(r.samples, l.buffer, l.position, i), decay, l.samples[i])
  {
    RunOutputMet(l, n, i, decay);
    if i >= |l.buffer| {
      RunOutputWrapped(l, n, i, decay);
    } else {
      RunOutputFirstTurn(l, i, decay);
    }
  }

  /** A full turn back, the slot holds the output written there. */
  lemma RunOutputWrapped(l: Line, n: nat, i: nat, decay: real)
    requires Fits(l) && |l.buffer| <= i < n <= |l.samples|
    ensures Run(l, i, decay).buffer[Slot(l.position, i, |l.buffer|)] == Run(l, n, decay).samples[i - |l.buffer|]
  {
    var d, p := |l.buffer|, l.position;
    var before := Run(l, i, decay);
    RunRing(l, i, decay);
    SlotTurn(p, i, d);
    assert before.buffer[Slot(p, i - d, d)] == before.samples[i - d];
    RunSamples(l, i, decay);
    RunSamples(l, n, decay);
  }

  /** In the first turn, the slot still holds what the ring held before. */
  lemma RunOutputFirstTurn(l: Line, i: nat, decay: real)
    requires Fits(l) && i < |l.buffer| && i <= |l.samples|
    ensures Run(l, i, decay).buffer[Slot(l.position, i, |l.buffer|)] == l.buffer[Slot(l.position, i, |l.buffer|)]
  {
    RunRing(l, i, decay);
  }

  /** Output `i` is input `i` plus the decayed slot the cursor was on. */
  lemma RunOutputMet(l: Line, n: nat, i: nat, decay: real)
    requires Fits(l) && i < n <= |l.samples|
    ensures Run(l, n, decay).samples[i]
         == Feedback(Run(l, i, decay).buffer[Slot(l.position, i, |l.buffer|)], decay, l.samples[i])
  {
    var before := Run(l, i, decay);
    RunPosition(l, i, decay);
    RunSamples(l, i, decay);
    assert Run(l, i + 1, decay) == Step(before, i, decay);
    RunSamples(l, n, decay);
  }

  /** One pass of the in-place loop is one more step of the run. */
  lemma SlotStep(start: Line, b: seq<real>, s: seq<real>, q: nat, k: nat, decay: real)
    requires Fits(start) && k < |start.samples| && q < |b|
    requires Line(b, s, q) == Run(start, k, decay)
    ensures var v := Feedback(b[q], decay, s[k]);
      Line(b[q := v], s[k := v], (q + 1) % |b|) == Run(start, k + 1, decay)
  {
  }

  /** One chunk of timbre's `echo` loop: `count` samples from sample `i`,
      walking the ring from the cursor without passing its end. */
  method EchoChunk(ghost start: Line, buffer: seq<real>, samples: seq<real>, position: nat, i: nat, count: nat, decay: real)
    returns (buffer': seq<real>, samples': seq<real>)
    requires Fits(start) && i + count <= |start.samples| && position + count <= |buffer|
    requires Line(buffer, samples, position) == Run(start, i, decay)
    ensures Line(buffer', samples', (position + count) % |buffer|) == Run(start, i + count, decay)
  {
    var delay := |buffer|;
    buffer', samples' := buffer, samples;
    var j := 0;
    ModUnique(position, 0, position, delay);
    while j < count
      invariant j <= count && |buffer'| == delay
      invariant Line(buffer', samples', (position + j) % delay) == Run(start, i + j, decay)
    {
      var q := position + j;
      ModUnique(q, 0, q, delay);
      SlotStep(start, buffer', samples', q, i + j, decay);
      buffer' := buffer'[q := Feedback(buffer'[q], decay, samples'[i + j])];
      samples' := samples'[i + j := buffer'[q]];
      j := j + 1;
    }
  }

  /** timbre's `echo` loop: chunks of at most `delay - position`
      samples, each chunk walking the ring from the cursor to its end. */
  method EchoInPlace(buffer: seq<real>, samples: seq<real>, written: nat, position: nat, delay: nat, decay: real)
    returns (buffer': seq<real>, samples': seq<real>, position': nat)
    requires 0 < delay == |buffer| && position < delay && written <= |samples|
    ensures Line(buffer', samples', position') == Run(Line(buffer, samples, position), written, decay)
  {
    ghost var start := Line(buffer, samples, position);
    buffer', samples', position' := buffer, samples, position;
    var i := 0;
    while i < written
      invariant i <= written && position' < delay && |buffer'| == delay
      invariant Line(buffer', samples', position') == Run(start, i, decay)
      decreases written - i
    {
      var count := Min(delay - position', written - i);
      buffer', samples' := EchoChunk(start, buffer', samples', position', i, count, decay);
      i := i + count;
      position' := (position' + count) % delay;
    }
  }

  // ---------------------------------------------------------------------
  // The node

  /** What a read demands: the upstream wrote within its slice, and an echo
      built with `delay == 0` is never handed samples (the cursor update
      would take a remainder by zero). */
  predicate CanRead<S>(e: Echo<S>, fmt: AudioFormat, samples: seq<real>, step: Reader<S>)
  {
    var p := step(e.source, fmt, samples);
    && Valid(e)
    && |p.samples| == |samples|
    && Written(p.result, |samples|) <= |samples|
    && (e.delay > 0 || Written(p.result, |samples|) == 0)
  }

  function Read<S>(e: Echo<S>, fmt: AudioFormat, samples: seq<real>, step: Reader<S>): (r: Pulled<Echo<S>>)
    requires CanRead(e, fmt, samples, step)
    // the upstream's state is returned; the delay line keeps its shape
    ensures var p := step(e.source, fmt, samples); var w := Written(p.result, |samples|);
      && r.result == p.result
      && Valid(r.source)
      && r.source.source == p.source && r.source.delay == e.delay && r.source.decay == e.decay
      && |r.samples| == |samples|
      && (forall i :: w <= i < |samples| ==> r.samples[i] == p.samples[i])
    ensures var p := step(e.source, fmt, samples); var w := Written(p.result, |samples|);
      w == 0 ==> r.samples == p.samples && r.source == e.(source := p.source)
    // the cursor moves `w` slots around the ring
    ensures var p := step(e.source, fmt, samples); var w := Written(p.result, |samples|);
      w > 0 ==> r.source.position == Slot(e.position, w, e.delay)
    // the feedback echo, and the ring holding the last `delay` outputs
    ensures var p := step(e.source, fmt, samples); var w := Written(p.result, |samples|);
      w > 0 ==>
        && IsEchoed(p.samples, r.samples, w, e.buffer, e.position, e.decay)
        && RingHolds(e.buffer, r.source.buffer, r.samples, w, e.position)
  {
    var p := step(e.source, fmt, samples);
    var w := Written(p.result, |samples|);
    if w == 0 then
      Pulled(e.(source := p.source), p.samples, p.result)
    else
      var start := Line(e.buffer, p.samples, e.position);
      var l := Run(start, w, e.decay);
      RunPosition(start, w, e.decay);
      RunSamples(start, w, e.decay);
      RunRing(start, w, e.decay);
      RunOutput(start, w, e.decay);
      Pulled(e.(source := p.source, buffer := l.buffer, position := l.position), l.samples, p.result)
  }

  /** With no feedback the echo passes the dry signal through. */
  lemma NoDecayIsDry<S>(e: Echo<S>, fmt: AudioFormat, samples: seq<real>, step: Reader<S>)
    requires CanRead(e, fmt, samples, step) && e.decay == 0.0
    ensures var p := step(e.source, fmt, samples);
      Read(e, fmt, samples, step).samples == p.samples
  {
    var p := step(e.source, fmt, samples);
    var r := Read(e, fmt, samples, step);
    var w := Written(p.result, |samples|);
    if w > 0 {
      EchoedWithoutDecay(p.samples, r.samples, w, e.buffer, e.position);
    }
    assert forall i :: 0 <= i < |samples| ==> r.samples[i] == p.samples[i];
  }

  lemma EchoedWithoutDecay(x: seq<real>, y: seq<real>, n: nat, ring: seq<real>, pos: nat)
    requires IsEchoed(x, y, n, ring, pos, 0.0)
    ensures forall i :: 0 <= i < n ==> y[i] == x[i]
  {
    forall i | 0 <= i < n
      ensures y[i] == x[i]
    {
      assert y[i] == Feedback(Earlier(y, ring, pos, i), 0.0, x[i]);
    }
  }
}

=== FILE: filter.dfy ===
/** The single-pole recurrence shared by `LowPass` and `HighPass`.

    A buffer of interleaved samples with `stride` channels is filtered so that
    each output depends on the output and the input one frame earlier on the
    same channel. For the first frame of a call those come from seeds: the
    state the node carried over from its previous call.
 */
module Filter {
  import opened Core

  /** The filter time constant for a cutoff frequency in Hz. A cutoff of
      zero would make it infinite. */
  function RcOf(cutoff: real): real
    requires cutoff != 0.0
  {
    1.0 / (2.0 * Pi * cutoff)
  }

  /** The sample period of a format. */
  function Period(fmt: AudioFormat): real
    requires fmt.sampleRate > 0
  {
    1.0 / fmt.sampleRate as real
  }

  /** Only mono and stereo streams with a sample rate can be filtered. */
  predicate Filterable(fmt: AudioFormat)
  {
    (fmt.channels == 1 || fmt.channels == 2) && fmt.sampleRate > 0
  }

  /** One output sample, from the previous output `before` of its channel,
      the new input `x` and the previous input `xBefore` of its channel. */
  type Kernel = (real, real, real) -> real

  /** The low-pass blends toward the input by `a`. */
  function LowPassKernel(a: real): Kernel
  {
    (before: real, x: real, xBefore: real) => before + a * (x - before)
  }

  /** The high-pass keeps `a` of the difference between consecutive inputs. */
  function HighPassKernel(a: real): Kernel
  {
    (before: real, x: real, xBefore: real) => a * (before + x - xBefore)
  }

  /** The element one frame before position `i` of `v`: for the first frame
      the seed of that channel (one seed per channel). */
  function Before(v: seq<real>, seeds: seq<real>, i: nat): real
    requires i < |seeds| || i - |seeds| < |v|
  {
    if i < |seeds| then seeds[i] else v[i - |seeds|]
  }

  /** `y` is `x` filtered with coefficient `a`, starting from the previous
      outputs `outSeeds` and previous inputs `inSeeds`, one per channel. */
  ghost predicate IsFiltered(f: Kernel, x: seq<real>, outSeeds: seq<real>, inSeeds: seq<real>, y: seq<real>)
  {
    && |y| == |x|
    && 0 < |outSeeds| == |inSeeds|
    && forall i {:trigger Before(y, outSeeds, i)} :: 0 <= i < |x| ==> y[i] == f(Before(y, outSeeds, i), x[i], Before(x, inSeeds, i))
  }

  /** The filter loop, one sample after the other. */
  function Run(f: Kernel, x: seq<real>, outSeeds: seq<real>, inSeeds: seq<real>): (y: seq<real>)
    requires 0 < |outSeeds| == |inSeeds|
    ensures IsFiltered(f, x, outSeeds, inSeeds, y)
    decreases |x|
  {
    if |x| == 0 then []
    else
      var n := |x| - 1;
      var init := Run(f, x[..n], outSeeds, inSeeds);
      var y := init + [f(Before(init, outSeeds, n), x[n], Before(x, inSeeds, n))];
      assert forall i :: 0 <= i < n ==>
          (Before(y, outSeeds, i) == Before(init, outSeeds, i) && Before(x, inSeeds, i) == Before(x[..n], inSeeds, i));
      y
  }

  /** The recurrence has one solution: the filter's output is determined by
      its input and seeds. */
  lemma {:induction false} Unique(f: Kernel, x: seq<real>, outSeeds: seq<real>, inSeeds: seq<real>, y: seq<real>, z: seq<real>)
    requires IsFiltered(f, x, outSeeds, inSeeds, y)
    requires IsFiltered(f, x, outSeeds, inSeeds, z)
    ensures y == z
  {
    UniquePrefix(f, x, outSeeds, inSeeds, y, z, |x|);
    assert y == y[..|x|] && z == z[..|x|];
  }

  lemma {:induction false} UniquePrefix(f: Kernel, x: seq<real>, outSeeds: seq<real>, inSeeds: seq<real>, y: seq<real>, z: seq<real>, n: nat)
    requires IsFiltered(f, x, outSeeds, inSeeds, y)
    requires IsFiltered(f, x, outSeeds, inSeeds, z)
    requires n <= |x|
    ensures y[..n] == z[..n]
    decreases n
  {
    if n > 0 {
      UniquePrefix(f, x, outSeeds, inSeeds, y, z, n - 1);
      var i := n - 1;
      UniqueAt(f, x[i], Before(x, inSeeds, i), y, z, outSeeds, i, y[i], z[i]);
      assert y[..n] == y[..i] + [y[i]] && z[..n] == z[..i] + [z[i]];
    }
  }

  /** Two solutions that agree before `i` agree at `i`: both apply the
      kernel to the same previous output and the same inputs. */
  lemma UniqueAt(f: Kernel, x: real, xBefore: real, y: seq<real>, z: seq<real>, seeds: seq<real>, i: nat, yi: real, zi: real)
    requires i < |y| && i < |z| && 0 < |seeds| && y[..i] == z[..i]
    requires yi == f(Before(y, seeds, i), x, xBefore)
    requires zi == f(Before(z, seeds, i), x, xBefore)
    ensures yi == zi
  {
    if i >= |seeds| {
      var j := i - |seeds|;
      assert y[j] == y[..i][j] && z[j] == z[..i][j];
    }
  }

  /** A characterisation of `Run` by its recurrence. */
  lemma RunIsTheSolution(f: Kernel, x: seq<real>, outSeeds: seq<real>, inSeeds: seq<real>, y: seq<real>)
    requires 0 < |outSeeds| == |inSeeds|
    ensures IsFiltered(f, x, outSeeds, inSeeds, y) <==> y == Run(f, x, outSeeds, inSeeds)
  {
    if IsFiltered(f, x, outSeeds, inSeeds, y) {
      Unique(f, x, outSeeds, inSeeds, y, Run(f, x, outSeeds, inSeeds));
    }
  }

  /** The low-pass recurrence never looks at previous inputs. */
  lemma LowPassIgnoresInputSeeds(a: real, x: seq<real>, outSeeds: seq<real>, inSeeds: seq<real>, otherSeeds: seq<real>)
    requires 0 < |outSeeds| == |inSeeds| == |otherSeeds|
    ensures Run(LowPassKernel(a), x, outSeeds, inSeeds) == Run(LowPassKernel(a), x, outSeeds, otherSeeds)
  {
    var f := LowPassKernel(a);
    var y := Run(f, x, outSeeds, inSeeds);
    assert IsFiltered(f, x, outSeeds, otherSeeds, y);
    Unique(f, x, outSeeds, otherSeeds, y, Run(f, x, outSeeds, otherSeeds));
  }

  // ---------------------------------------------------------------------
  // Channels are independent

  /** The samples of channel `c` of an interleaved buffer with `stride`
      channels, one per whole frame. */
  function Channel(v: seq<real>, c: nat, stride: nat): seq<real>
    requires c < stride
    decreases |v|
  {
    if |v| < stride then [] else [v[c]] + Channel(v[stride..], c, stride)
  }

  /** Channel `c` has one sample per whole frame, sample `m` being channel
      `c` of frame `m`. */
  lemma {:induction false} ChannelAt(v: seq<real>, c: nat, stride: nat, m: nat)
    requires c < stride
    ensures |Channel(v, c, stride)| == Quotient(|v|, stride)
    ensures m < Quotient(|v|, stride) ==> Times(m, stride) + c < |v| && Channel(v, c, stride)[m] == v[Times(m, stride) + c]
    decreases |v|
  {
    ChannelLength(v, c, stride);
    if |v| >= stride && 0 < m < Quotient(|v|, stride) {
      ChannelAt(v[stride..], c, stride, m - 1);
      ChannelShift(v, c, stride, m);
    }
  }

  lemma {:induction false} ChannelLength(v: seq<real>, c: nat, stride: nat)
    requires c < stride
    ensures |Channel(v, c, stride)| == Quotient(|v|, stride)
    decreases |v|
  {
    if |v| >= stride {
      ChannelLength(v[stride..], c, stride);
    }
  }

  /** Sample `m > 0` of a channel is sample `m - 1` of the channel of the
      buffer without its first frame. */
  lemma ChannelShift(v: seq<real>, c: nat, stride: nat, m: nat)
    requires c < stride <= |v| && 0 < m
    requires m - 1 < |Channel(v[stride..], c, stride)|
    requires Times(m - 1, stride) + c < |v| - stride
    ensures Times(m, stride) + c < |v|
    ensures Channel(v, c, stride)[m] == Channel(v[stride..], c, stride)[m - 1]
    ensures v[Times(m, stride) + c] == v[stride..][Times(m - 1, stride) + c]
  {
    var tail := Channel(v[stride..], c, stride);
    assert Channel(v, c, stride) == [v[c]] + tail;
    assert ([v[c]] + tail)[m] == tail[m - 1];
    assert Times(m, stride) == Times(m - 1, stride) + stride;
  }

  /** Filtering an interleaved buffer filters each channel on its own, from
      that channel's seeds. */
  lemma {:induction false} ChannelFiltered(f: Kernel, x: seq<real>, outSeeds: seq<real>, inSeeds: seq<real>, y: seq<real>, c: nat)
    requires IsFiltered(f, x, outSeeds, inSeeds, y)
    requires c < |outSeeds|
    ensures IsFiltered(f, Channel(x, c, |outSeeds|), [outSeeds[c]], [inSeeds[c]], Channel(y, c, |outSeeds|))
  {
    var s := |outSeeds|;
    var cx, cy := Channel(x, c, s), Channel(y, c, s);
    ChannelAt(x, c, s, 0);
    ChannelAt(y, c, s, 0);
    forall m | 0 <= m < |cx|
      ensures cy[m] == f(Before(cy, [outSeeds[c]], m), cx[m], Before(cx, [inSeeds[c]], m))
    {
      var i := ChannelNeighbours(x, y, c, s, m);
      ChannelStep(f, x, outSeeds, inSeeds, y, cx, cy, c, m, i);
    }
  }

  /** Sample `m` of channel `c` and the one before it sit at `i` and one
      stride before `i` in the interleaved buffers. */
  lemma ChannelNeighbours(x: seq<real>, y: seq<real>, c: nat, s: nat, m: nat) returns (i: nat)
    requires |y| == |x| && c < s && m < Quotient(|x|, s)
    ensures var cx, cy := Channel(x, c, s), Channel(y, c, s);
      && |cx| == |cy| == Quotient(|x|, s)
      && i < |x| && (m == 0 <==> i < s) && (m == 0 ==> i == c)
      && cx[m] == x[i] && cy[m] == y[i]
      && (m > 0 ==> cx[m - 1] == x[i - s] && cy[m - 1] == y[i - s])
  {
    i := Times(m, s) + c;
    ChannelAt(x, c, s, m);
    ChannelAt(y, c, s, m);
    if m > 0 {
      ChannelAt(x, c, s, m - 1);
      ChannelAt(y, c, s, m - 1);
      assert i - s == Times(m - 1, s) + c;
    }
  }

  /** One step of the recurrence, seen through a channel. */
  lemma ChannelStep(f: Kernel, x: seq<real>, outSeeds: seq<real>, inSeeds: seq<real>, y: seq<real>,
                    cx: seq<real>, cy: seq<real>, c: nat, m: nat, i: nat)
    requires |y| == |x| && 0 < |outSeeds| == |inSeeds| && c < |outSeeds|
    requires m < |cx| == |cy| && i < |x| && (m == 0 <==> i < |outSeeds|) && (m == 0 ==> i == c)
    requires cx[m] == x[i] && cy[m] == y[i]
    requires m > 0 ==> cx[m - 1] == x[i - |outSeeds|] && cy[m - 1] == y[i - |outSeeds|]
    requires y[i] == f(Before(y, outSeeds, i), x[i], Before(x, inSeeds, i))
    ensures cy[m] == f(Before(cy, [outSeeds[c]], m), cx[m], Before(cx, [inSeeds[c]], m))
  {
  }

  lemma ChannelsIndependent(f: Kernel, x: seq<real>, outSeeds: seq<real>, inSeeds: seq<real>, c: nat)
    requires 0 < |outSeeds| == |inSeeds| && c < |outSeeds|
    ensures Channel(Run(f, x, outSeeds, inSeeds), c, |outSeeds|)
         == Run(f, Channel(x, c, |outSeeds|), [outSeeds[c]], [inSeeds[c]])
  {
    var y := Run(f, x, outSeeds, inSeeds);
    ChannelFiltered(f, x, outSeeds, inSeeds, y, c);
    RunIsTheSolution(f, Channel(x, c, |outSeeds|), [outSeeds[c]], [inSeeds[c]], Channel(y, c, |outSeeds|));
  }

  // ---------------------------------------------------------------------
  // Continuity across calls

  /** The last frame of a buffer. */
  function LastFrame(v: seq<real>, stride: nat): (r: seq<real>)
    requires stride <= |v|
    ensures |r| == stride
  {
    v[|v| - stride..]
  }

  /** Filtering two buffers one after the other, each call seeded from the
      last frame of the previous call's output and input, is filtering their
      concatenation in one go. */
  lemma {:induction false} Continuity(f: Kernel, x1: seq<real>, x2: seq<real>, outSeeds: seq<real>, inSeeds: seq<real>)
    requires 0 < |outSeeds| == |inSeeds| <= |x1|
    ensures Run(f, x1 + x2, outSeeds, inSeeds)
         == Run(f, x1, outSeeds, inSeeds)
          + Run(f, x2, LastFrame(Run(f, x1, outSeeds, inSeeds), |outSeeds|), LastFrame(x1, |outSeeds|))
  {
    var s := |outSeeds|;
    var y1 := Run(f, x1, outSeeds, inSeeds);
    var o2, i2 := LastFrame(y1, s), LastFrame(x1, s);
    var y2 := Run(f, x2, o2, i2);
    var x, y := x1 + x2, y1 + y2;
    forall i | 0 <= i < |x|
      ensures y[i] == f(Before(y, outSeeds, i), x[i], Before(x, inSeeds, i))
    {
      if i < |x1| {
        assert y[i] == y1[i] && x[i] == x1[i];
        assert y1[i] == f(Before(y1, outSeeds, i), x1[i], Before(x1, inSeeds, i));
        if i >= s {
          assert y[i - s] == y1[i - s] && x[i - s] == x1[i - s];
        }
      } else {
        var j := i - |x1|;
        assert y[i] == y2[j] && x[i] == x2[j];
        assert y2[j] == f(Before(y2, o2, j), x2[j], Before(x2, i2, j));
        if j < s {
          assert y[i - s] == o2[j] && x[i - s] == i2[j];
        } else {
          assert y[i - s] == y2[j - s] && x[i - s] == x2[j - s];
        }
      }
    }
    RunIsTheSolution(f, x, outSeeds, inSeeds, y);
  }

  /** An upstream for the filters' scenarios: in buffers of two, it first
      writes a single one and reports `Underrun(1)`, then writes two ones. */
  function OneThenTwo(s: nat, f: AudioFormat, b: seq<real>): Pulled<nat>
  {
    if s == 0 then Pulled(1, [1.0, 0.0], UnderrunResult(1)) else Pulled(s + 1, [1.0, 1.0], GoodResult(2))
  }
}

=== FILE: high_pass.dfy ===
/** `HighPass`: a single-pole high-pass filter over one upstream source.

    Besides its scratch vector (the previous outputs) the filter keeps the
    last input frame of its previous call in `prev`, so the difference of
    consecutive inputs is continuous across calls. It belongs to the API
    generation whose `Good` carried no count and whose format was either
    mono or stereo; the format is captured from the upstream at construction.
 */
module HighPassFilter {
  import opened Core
  import opened Filter

  datatype HighPass<S> = HighPass(buffer: seq<real>, format: AudioFormat, rc: real, source: S, prev: seq<real>)

  /** The state every high-pass keeps: two remembered inputs, a nonzero time
      constant and a mono or stereo format (any sample rate). */
  predicate Valid<S>(hp: HighPass<S>)
  {
    |hp.prev| == 2 && hp.rc != 0.0 && (hp.format.channels == 1 || hp.format.channels == 2)
  }

  /** `format` is what the upstream reports at construction. */
  function New<S>(source: S, format: AudioFormat, cutoff: real): (hp: HighPass<S>)
    requires (format.channels == 1 || format.channels == 2) && cutoff != 0.0
    ensures Valid(hp)
    ensures hp.prev == [0.0, 0.0] && hp.format == format && hp.buffer == [] && hp.source == source
    ensures hp.rc * (2.0 * Pi * cutoff) == 1.0
  {
    HighPass([], format, RcOf(cutoff), source, [0.0, 0.0])
  }

  /** Both the mono and the stereo path use `rc / (rc + dt)`. */
  function Coefficient(rc: real, fmt: AudioFormat): real
    requires fmt.sampleRate > 0 && rc + Period(fmt) != 0.0
  {
    rc / (rc + Period(fmt))
  }

  /** What a read demands: the upstream wrote within its slice, and if it
      wrote anything the sample rate is positive, a stereo count is even
      (the stereo filter asserts it) and the coefficient's denominator
      `rc + dt` is not zero. */
  predicate CanRead<S>(hp: HighPass<S>, fmt: AudioFormat, samples: seq<real>, step: Reader<S>)
  {
    var p := step(hp.source, fmt, samples);
    && Valid(hp)
    && |p.samples| == |samples|
    && Written(p.result, |samples|) <= |samples|
    && (Written(p.result, |samples|) > 0 ==>
          && hp.format.sampleRate > 0 && hp.rc + Period(hp.format) != 0.0
          && (hp.format.channels == 2 ==> Written(p.result, |samples|) % 2 == 0))
  }

  /** `y` is the high-pass of `x`, seeded from the previous outputs
      `outSeeds` and the previous inputs `inSeeds`. */
  ghost predicate IsHighPassed(a: real, x: seq<real>, outSeeds: seq<real>, inSeeds: seq<real>, y: seq<real>)
  {
    IsFiltered(HighPassKernel(a), x, outSeeds, inSeeds, y)
  }

  function Read<S>(hp: HighPass<S>, fmt: AudioFormat, samples: seq<real>, step: Reader<S>): (r: Pulled<HighPass<S>>)
    requires CanRead(hp, fmt, samples, step)
    // `Good` counts as the whole buffer; the upstream's state is passed on
    ensures var p := step(hp.source, fmt, samples); var w := Written(p.result, |samples|);
      && r.result == p.result
      && Valid(r.source)
      && r.source.source == p.source && r.source.rc == hp.rc && r.source.format == hp.format
      && |r.samples| == |samples|
      && (forall i :: w <= i < |samples| ==> r.samples[i] == p.samples[i])
    // nothing written: returned early, `prev` and the scratch vector untouched
    ensures var p := step(hp.source, fmt, samples);
      Written(p.result, |samples|) == 0 ==>
        r.samples == p.samples && r.source.buffer == hp.buffer && r.source.prev == hp.prev
    // otherwise each channel is filtered from the scratch vector's last frame
    // below `w` and from `prev`; `prev` becomes the last input frame
    ensures var p := step(hp.source, fmt, samples); var w := Written(p.result, |samples|);
      var c := hp.format.channels as nat;
      w > 0 ==>
        && IsHighPassed(Coefficient(hp.rc, hp.format), p.samples[..w],
                        LastFrame(Resize(hp.buffer, |samples|)[..w], c), hp.prev[..c], r.samples[..w])
        && r.source.prev[..c] == LastFrame(p.samples[..w], c)
        && (c == 1 ==> r.source.prev[1] == 0.0)
        && |r.source.buffer| == |samples|
        && r.source.buffer[..w] == r.samples[..w]
        && (forall i :: w <= i < |samples| ==> r.source.buffer[i] == ScratchAt(hp.buffer, i))
  {
    var p := step(hp.source, fmt, samples);
    var w := Written(p.result, |samples|);
    if w == 0 then
      Pulled(hp.(source := p.source), p.samples, p.result)
    else
      var scratch := Resize(hp.buffer, |samples|);
      var x := p.samples[..w];
      var a := Coefficient(hp.rc, hp.format);
      var c := hp.format.channels as nat;
      // mono seeds from scratch[w - 1] and prev[0], stereo from scratch[w - 2..w] and prev
      var y := Run(HighPassKernel(a), x, LastFrame(scratch[..w], c), hp.prev[..c]);
      var prev := NextPrev(x, c);
      assert (y + p.samples[w..])[..w] == y && (y + scratch[w..])[..w] == y;
      Pulled(HighPass(y + scratch[w..], hp.format, hp.rc, p.source, prev), y + p.samples[w..], p.result)
  }

  /** The input frame remembered for the next call: `[last, 0]` for mono,
      the last two inputs for stereo. */
  function NextPrev(x: seq<real>, c: nat): (prev: seq<real>)
    requires (c == 1 || c == 2) && c <= |x|
    ensures |prev| == 2 && prev[..c] == LastFrame(x, c)
    ensures c == 1 ==> prev[1] == 0.0
  {
    if c == 1 then [x[|x| - 1], 0.0] else [x[|x| - 2], x[|x| - 1]]
  }

  /** An upstream that writes nothing. */
  function Empty(s: nat, f: AudioFormat, b: seq<real>): Pulled<nat>
  {
    Pulled(s, b, UnderrunResult(0))
  }

  /** A filter on a stream without a sample rate can be built, and read while
      nothing is written: the read returns before the period is computed. */
  lemma ZeroRateEmptyRead(b: seq<real>)
    ensures var fmt := AudioFormat(1, 0);
      var hp := New(0, fmt, 1.0);
      var r := Read(hp, fmt, b, Empty);
      && CanRead(hp, fmt, b, Empty)
      && r.samples == b && r.result == UnderrunResult(0)
      && r.source.prev == hp.prev && r.source.buffer == hp.buffer
  {
  }

  /** Two reads that write the same count filter their inputs as one
      continuous stream: `prev` and the scratch vector carry exactly the
      state the recurrence needs. */
  lemma ReadContinuity<S>(hp: HighPass<S>, fmt: AudioFormat, b1: seq<real>, b2: seq<real>, step: Reader<S>)
    requires CanRead(hp, fmt, b1, step)
    requires CanRead(Read(hp, fmt, b1, step).source, fmt, b2, step)
    requires var n := Written(step(hp.source, fmt, b1).result, |b1|);
      n > 0 && Written(step(Read(hp, fmt, b1, step).source.source, fmt, b2).result, |b2|) == n
    ensures var r1 := Read(hp, fmt, b1, step);
      var r2 := Read(r1.source, fmt, b2, step);
      var x1 := step(hp.source, fmt, b1).samples; var x2 := step(r1.source.source, fmt, b2).samples;
      var n := Written(step(hp.source, fmt, b1).result, |b1|);
      var c := hp.format.channels as nat;
      r1.samples[..n] + r2.samples[..n]
        == Run(HighPassKernel(Coefficient(hp.rc, hp.format)), x1[..n] + x2[..n],
               LastFrame(Resize(hp.buffer, |b1|)[..n], c), hp.prev[..c])
  {
    var r1 := Read(hp, fmt, b1, step);
    var r2 := Read(r1.source, fmt, b2, step);
    var x1 := step(hp.source, fmt, b1).samples;
    var x2 := step(r1.source.source, fmt, b2).samples;
    var n := Written(step(hp.source, fmt, b1).result, |b1|);
    var a := Coefficient(hp.rc, hp.format);
    var c := hp.format.channels as nat;
    var seeds := LastFrame(Resize(hp.buffer, |b1|)[..n], c);
    var y1 := r1.samples[..n];
    RunIsTheSolution(HighPassKernel(a), x1[..n], seeds, hp.prev[..c], y1);
    var seeds2 := LastFrame(Resize(r1.source.buffer, |b2|)[..n], c);
    assert seeds2 == LastFrame(y1, c) by {
      assert Resize(r1.source.buffer, |b2|)[..n] == r1.source.buffer[..n];
    }
    RunIsTheSolution(HighPassKernel(a), x2[..n], seeds2, r1.source.prev[..c], r2.samples[..n]);
    Continuity(HighPassKernel(a), x1[..n], x2[..n], seeds, hp.prev[..c]);
  }

  /** As for the low-pass, reads of different counts are not one continuous
      stream. `prev` carries the input side correctly, but the output seed
      is scratch slot `written - 1` of the new count: after a read that wrote
      one sample, the next read of two seeds from the zero in slot 1 instead
      of the output 1/2 in slot 0. */
  lemma UnequalCountsRestart(b1: seq<real>, b2: seq<real>)
    requires |b1| == 2 && |b2| == 2
    ensures var fmt := AudioFormat(1, 8);
      var hp := New(0, fmt, 4.0 / Pi);
      var r1 := Read(hp, fmt, b1, OneThenTwo);
      var r2 := Read(r1.source, fmt, b2, OneThenTwo);
      var stream := Run(HighPassKernel(Coefficient(hp.rc, fmt)), [1.0, 1.0, 1.0], [0.0], [0.0]);
      && r1.result == UnderrunResult(1) && r2.result == GoodResult(2)
      && r1.samples[..1] + r2.samples == [0.5, 0.0, 0.0]
      && stream == [0.5, 0.25, 0.125]
      && r1.samples[..1] + r2.samples != stream
  {
    HalfCoefficient();
    var r1 := OneSampleRead(New(0, AudioFormat(1, 8), 4.0 / Pi), b1);
    var r2 := TwoSampleRead(r1.source, b2);
    ContinuedStream();
    assert (r1.samples[..1] + r2.samples)[1] == 0.0;
  }

  /** Mono at 8 Hz with a cutoff of 4/π: `rc == dt` and `a == 1/2`. */
  lemma HalfCoefficient()
    ensures New(0, AudioFormat(1, 8), 4.0 / Pi).rc == 0.125
    ensures Coefficient(0.125, AudioFormat(1, 8)) == 0.5
  {
    assert 2.0 * Pi * (4.0 / Pi) == 8.0;
  }

  /** The first read of `UnequalCountsRestart`: one sample, from a fresh filter. */
  lemma OneSampleRead(hp: HighPass<nat>, b: seq<real>) returns (r: Pulled<HighPass<nat>>)
    requires |b| == 2 && hp == HighPass([], AudioFormat(1, 8), 0.125, 0, [0.0, 0.0])
    ensures r == Read(hp, AudioFormat(1, 8), b, OneThenTwo)
    ensures r.samples[..1] == [0.5]
    ensures r.source == HighPass([0.5, 0.0], AudioFormat(1, 8), 0.125, 1, [1.0, 0.0])
  {
    HalfCoefficient();
    r := Read(hp, AudioFormat(1, 8), b, OneThenTwo);
    var x: seq<real> := [1.0, 0.0];
    assert x[..1] == [1.0];
    assert LastFrame(Resize(hp.buffer, 2)[..1], 1) == [0.0] && hp.prev[..1] == [0.0];
    assert IsHighPassed(0.5, [1.0], [0.0], [0.0], [0.5]);
    Unique(HighPassKernel(0.5), [1.0], [0.0], [0.0], [0.5], r.samples[..1]);
    assert r.source.buffer == r.samples[..1] + [0.0];
  }

  /** The second read: two samples, seeded from scratch slot 1 and `prev`. */
  lemma TwoSampleRead(hp: HighPass<nat>, b: seq<real>) returns (r: Pulled<HighPass<nat>>)
    requires |b| == 2 && hp == HighPass([0.5, 0.0], AudioFormat(1, 8), 0.125, 1, [1.0, 0.0])
    ensures r == Read(hp, AudioFormat(1, 8), b, OneThenTwo)
    ensures r.samples == [0.0, 0.0]
  {
    HalfCoefficient();
    r := Read(hp, AudioFormat(1, 8), b, OneThenTwo);
    var x: seq<real> := [1.0, 1.0];
    assert x[..2] == x;
    assert LastFrame(Resize(hp.buffer, 2)[..2], 1) == [0.0] && hp.prev[..1] == [1.0];
    assert IsHighPassed(0.5, x, [0.0], [1.0], [0.0, 0.0]);
    Unique(HighPassKernel(0.5), x, [0.0], [1.0], [0.0, 0.0], r.samples[..2]);
    assert r.samples == r.samples[..2];
  }

  /** Three ones high-passed as one stream from rest at `a == 1/2`. */
  lemma ContinuedStream()
    ensures Run(HighPassKernel(0.5), [1.0, 1.0, 1.0], [0.0], [0.0]) == [0.5, 0.25, 0.125]
  {
    var x: seq<real> := [1.0, 1.0, 1.0];
    assert IsHighPassed(0.5, x, [0.0], [0.0], [0.5, 0.25, 0.125]);
    Unique(HighPassKernel(0.5), x, [0.0], [0.0], [0.5, 0.25, 0.125], Run(HighPassKernel(0.5), x, [0.0], [0.0]));
  }
}

=== FILE: low_pass.dfy ===
/** `LowPass`: a single-pole low-pass filter over one upstream source.

    Each call filters the samples the upstream wrote, seeding every channel
    from the filter's scratch vector as the previous call left it. The mono
    and stereo paths use different coefficients, as the Rust code does:
    `rc / (rc + dt)` for mono and `dt / (rc + dt)` for stereo.
 */
module LowPassFilter {
  import opened Core
  import opened Filter

  datatype LowPass<S> = LowPass(buffer: seq<real>, rc: real, source: S)

  /** The cutoff a filter reports: the inverse of `RcOf`. */
  function Cutoff<S>(lp: LowPass<S>): (c: real)
    requires lp.rc != 0.0
    ensures c != 0.0 && RcOf(c) == lp.rc
  {
    var c := 1.0 / (2.0 * Pi * lp.rc);
    assert 2.0 * Pi * c == 1.0 / lp.rc;
    c
  }

  function New<S>(source: S, cutoff: real): (lp: LowPass<S>)
    requires cutoff != 0.0
    ensures lp.buffer == [] && lp.source == source
    ensures lp.rc != 0.0 && Cutoff(lp) == cutoff
  {
    LowPass([], RcOf(cutoff), source)
  }

  /** Changing the cutoff changes nothing but the time constant, and the
      cutoff then reads back as set. */
  function SetCutoff<S>(lp: LowPass<S>, cutoff: real): (r: LowPass<S>)
    requires cutoff != 0.0
    ensures r.buffer == lp.buffer && r.source == lp.source
    ensures r.rc != 0.0 && Cutoff(r) == cutoff
  {
    lp.(rc := RcOf(cutoff))
  }

  /** Setting the cutoff the filter already reports leaves it unchanged. */
  lemma SetCutoffToCurrent<S>(lp: LowPass<S>)
    requires lp.rc != 0.0
    ensures Cutoff(lp) != 0.0 && SetCutoff(lp, Cutoff(lp)) == lp
  {
  }

  function MonoCoefficient(rc: real, dt: real): real
    requires rc + dt != 0.0
  {
    rc / (rc + dt)
  }

  function StereoCoefficient(rc: real, dt: real): real
    requires rc + dt != 0.0
  {
    dt / (rc + dt)
  }

  /** The coefficient the Rust code picks for a format's channel count. */
  function Coefficient(rc: real, fmt: AudioFormat): real
    requires fmt.sampleRate > 0 && rc + Period(fmt) != 0.0
  {
    if fmt.channels == 1 then MonoCoefficient(rc, Period(fmt)) else StereoCoefficient(rc, Period(fmt))
  }

  /** What a read demands: the upstream wrote within the slice it was given,
      and if it wrote anything the format is mono or stereo (other channel
      counts panic), a stereo count is even (the stereo filter asserts it)
      and the coefficient's denominator `rc + dt` is not zero. */
  predicate CanRead<S>(lp: LowPass<S>, fmt: AudioFormat, samples: seq<real>, step: Reader<S>)
  {
    var p := step(lp.source, fmt, samples);
    && lp.rc != 0.0
    && |p.samples| == |samples|
    && p.result.read <= |samples|
    && (p.result.read > 0 ==>
          && Filterable(fmt) && lp.rc + Period(fmt) != 0.0
          && (fmt.channels == 2 ==> p.result.read % 2 == 0))
  }

  /** `y` is the low-pass of `x` seeded from the previous outputs `seeds`. */
  ghost predicate IsLowPassed(a: real, x: seq<real>, seeds: seq<real>, y: seq<real>)
  {
    IsFiltered(LowPassKernel(a), x, seeds, seeds, y)
  }

  function Read<S>(lp: LowPass<S>, fmt: AudioFormat, samples: seq<real>, step: Reader<S>): (r: Pulled<LowPass<S>>)
    requires CanRead(lp, fmt, samples, step)
    // the upstream's result is passed on unchanged
    ensures var p := step(lp.source, fmt, samples);
      && r.result == p.result
      && r.source.source == p.source && r.source.rc == lp.rc
      && |r.samples| == |samples|
      && (forall i :: p.result.read <= i < |samples| ==> r.samples[i] == p.samples[i])
    // nothing written: nothing filtered, the scratch vector untouched
    ensures var p := step(lp.source, fmt, samples);
      p.result.read == 0 ==> r.samples == p.samples && r.source.buffer == lp.buffer
    // otherwise: filtered from the scratch vector's last frame below `read`,
    // and the outputs stored in the scratch vector to seed the next call
    ensures var p := step(lp.source, fmt, samples); var w := p.result.read;
      w > 0 ==>
        && IsLowPassed(Coefficient(lp.rc, fmt), p.samples[..w],
                       LastFrame(Resize(lp.buffer, |samples|)[..w], fmt.channels), r.samples[..w])
        && |r.source.buffer| == |samples|
        && r.source.buffer[..w] == r.samples[..w]
        && (forall i :: w <= i < |samples| ==> r.source.buffer[i] == ScratchAt(lp.buffer, i))
  {
    var p := step(lp.source, fmt, samples);
    var w := p.result.read;
    if w == 0 then
      Pulled(lp.(source := p.source), p.samples, p.result)
    else
      var scratch := Resize(lp.buffer, |samples|);
      var dt := Period(fmt);
      // mono seeds from scratch[w - 1], stereo from scratch[w - 2] and scratch[w - 1]
      var seeds := LastFrame(scratch[..w], fmt.channels);
      var a := if fmt.channels == 1 then MonoCoefficient(lp.rc, dt) else StereoCoefficient(lp.rc, dt);
      var y := Run(LowPassKernel(a), p.samples[..w], seeds, seeds);
      assert (y + p.samples[w..])[..w] == y && (y + scratch[w..])[..w] == y;
      Pulled(LowPass(y + scratch[w..], lp.rc, p.source), y + p.samples[w..], p.result)
  }

  /** Two reads that write the same count filter their inputs as one
      continuous stream: the second call picks up where the first left off. */
  lemma ReadContinuity<S>(lp: LowPass<S>, fmt: AudioFormat, b1: seq<real>, b2: seq<real>, step: Reader<S>)
    requires CanRead(lp, fmt, b1, step)
    requires CanRead(Read(lp, fmt, b1, step).source, fmt, b2, step)
    requires var n := step(lp.source, fmt, b1).result.read;
      n > 0 && step(Read(lp, fmt, b1, step).source.source, fmt, b2).result.read == n
    ensures var r1 := Read(lp, fmt, b1, step);
      var r2 := Read(r1.source, fmt, b2, step);
      var x1 := step(lp.source, fmt, b1).samples; var x2 := step(r1.source.source, fmt, b2).samples;
      var n := r1.result.read;
      r1.samples[..n] + r2.samples[..n]
        == Run(LowPassKernel(Coefficient(lp.rc, fmt)), x1[..n] + x2[..n],
               LastFrame(Resize(lp.buffer, |b1|)[..n], fmt.channels), LastFrame(Resize(lp.buffer, |b1|)[..n], fmt.channels))
  {
    var r1 := Read(lp, fmt, b1, step);
    var r2 := Read(r1.source, fmt, b2, step);
    var x1 := step(lp.source, fmt, b1).samples;
    var x2 := step(r1.source.source, fmt, b2).samples;
    var n := r1.result.read;
    var a := Coefficient(lp.rc, fmt);
    var c := fmt.channels as nat;
    var seeds := LastFrame(Resize(lp.buffer, |b1|)[..n], c);
    var y1 := r1.samples[..n];
    RunIsTheSolution(LowPassKernel(a), x1[..n], seeds, seeds, y1);
    var seeds2 := LastFrame(Resize(r1.source.buffer, |b2|)[..n], c);
    assert seeds2 == LastFrame(y1, c) by {
      assert Resize(r1.source.buffer, |b2|)[..n] == r1.source.buffer[..n];
    }
    RunIsTheSolution(LowPassKernel(a), x2[..n], seeds2, seeds2, r2.samples[..n]);
    Continuity(LowPassKernel(a), x1[..n], x2[..n], seeds, seeds);
    LowPassIgnoresInputSeeds(a, x2[..n], LastFrame(y1, c), LastFrame(x1[..n], c), seeds2);
  }

  /** Reads of different counts are not one continuous stream. Each read
      seeds from scratch slot `written - 1` of its own count, so after a read
      that wrote one sample the next read of two seeds from the zero padding
      in slot 1, not from the output in slot 0: its first output is 1/2 where
      the stream continued would give 3/4. */
  lemma UnequalCountsRestart(b1: seq<real>, b2: seq<real>)
    requires |b1| == 2 && |b2| == 2
    ensures var fmt := AudioFormat(1, 8);
      var lp := New(0, 4.0 / Pi);
      var r1 := Read(lp, fmt, b1, OneThenTwo);
      var r2 := Read(r1.source, fmt, b2, OneThenTwo);
      var stream := Run(LowPassKernel(Coefficient(lp.rc, fmt)), [1.0, 1.0, 1.0], [0.0], [0.0]);
      && r1.result.read == 1 && r2.result.read == 2
      && r1.samples[..1] + r2.samples == [0.5, 0.5, 0.75]
      && stream == [0.5, 0.75, 0.875]
      && r1.samples[..1] + r2.samples != stream
  {
    HalfCoefficient();
    var r1 := OneSampleRead(New(0, 4.0 / Pi), b1);
    var r2 := TwoSampleRead(r1.source, b2);
    ContinuedStream();
    assert (r1.samples[..1] + r2.samples)[1] == 0.5;
  }

  /** The first read of `UnequalCountsRestart`: one sample, from a fresh filter. */
  lemma OneSampleRead(lp: LowPass<nat>, b: seq<real>) returns (r: Pulled<LowPass<nat>>)
    requires |b| == 2 && lp.rc == 0.125 && lp.source == 0 && lp.buffer == []
    ensures r == Read(lp, AudioFormat(1, 8), b, OneThenTwo)
    ensures r.result.read == 1 && r.samples[..1] == [0.5]
    ensures r.source == LowPass([0.5, 0.0], 0.125, 1)
  {
    HalfCoefficient();
    r := Read(lp, AudioFormat(1, 8), b, OneThenTwo);
    var x: seq<real> := [1.0, 0.0];
    assert x[..1] == [1.0];
    assert LastFrame(Resize(lp.buffer, 2)[..1], 1) == [0.0];
    assert IsLowPassed(0.5, [1.0], [0.0], [0.5]);
    Unique(LowPassKernel(0.5), [1.0], [0.0], [0.0], [0.5], r.samples[..1]);
    assert r.source.buffer == r.samples[..1] + [0.0];
  }

  /** The second read: two samples, seeded from scratch slot 1. */
  lemma TwoSampleRead(lp: LowPass<nat>, b: seq<real>) returns (r: Pulled<LowPass<nat>>)
    requires |b| == 2 && lp == LowPass([0.5, 0.0], 0.125, 1)
    ensures r == Read(lp, AudioFormat(1, 8), b, OneThenTwo)
    ensures r.result.read == 2 && r.samples == [0.5, 0.75]
  {
    HalfCoefficient();
    r := Read(lp, AudioFormat(1, 8), b, OneThenTwo);
    var x: seq<real> := [1.0, 1.0];
    assert x[..2] == x;
    assert LastFrame(Resize(lp.buffer, 2)[..2], 1) == [0.0];
    assert IsLowPassed(0.5, x, [0.0], [0.5, 0.75]);
    Unique(LowPassKernel(0.5), x, [0.0], [0.0], [0.5, 0.75], r.samples[..2]);
    assert r.samples == r.samples[..2];
  }

  /** Three ones filtered as one stream from zero at `a == 1/2`. */
  lemma ContinuedStream()
    ensures Run(LowPassKernel(0.5), [1.0, 1.0, 1.0], [0.0], [0.0]) == [0.5, 0.75, 0.875]
  {
    var x: seq<real> := [1.0, 1.0, 1.0];
    assert IsLowPassed(0.5, x, [0.0], [0.5, 0.75, 0.875]);
    Unique(LowPassKernel(0.5), x, [0.0], [0.0], [0.5, 0.75, 0.875], Run(LowPassKernel(0.5), x, [0.0], [0.0]));
  }

  /** A constant upstream: four ones, reported Good. */
  function Ones(s: nat, f: AudioFormat, b: seq<real>): Pulled<nat>
  {
    Pulled(s, [1.0, 1.0, 1.0, 1.0], GoodResult(4))
  }

  /** Mono at 8 Hz with `rc == dt` gives `a == 1/2`: from a fresh filter, two
      reads of four ones climb toward one, halving the distance each sample. */
  lemma HalfStepScenario(b1: seq<real>, b2: seq<real>)
    requires |b1| == 4 && |b2| == 4
    ensures var fmt := AudioFormat(1, 8);
      var lp := New(0, 4.0 / Pi);
      var r1 := Read(lp, fmt, b1, Ones);
      var r2 := Read(r1.source, fmt, b2, Ones);
      && r1.samples == [0.5, 0.75, 0.875, 0.9375]
      && r2.samples == [0.96875, 0.984375, 0.9921875, 0.99609375]
  {
    var fmt := AudioFormat(1, 8);
    var lp := New(0, 4.0 / Pi);
    HalfCoefficient();
    var r1 := HalfStep(lp, b1, [0.0], [0.5, 0.75, 0.875, 0.9375]);
    assert r1.samples == r1.source.buffer;
    var r2 := HalfStep(r1.source, b2, [0.9375], [0.96875, 0.984375, 0.9921875, 0.99609375]);
  }

  lemma HalfCoefficient()
    ensures New(0, 4.0 / Pi).rc == 0.125
    ensures Coefficient(0.125, AudioFormat(1, 8)) == 0.5
  {
    assert 2.0 * Pi * (4.0 / Pi) == 8.0;
  }

  /** One read of four ones at `a == 1/2`, seeded from `seed`. */
  lemma HalfStep(lp: LowPass<nat>, b: seq<real>, seed: seq<real>, y: seq<real>) returns (r: Pulled<LowPass<nat>>)
    requires |b| == 4 && lp.rc == 0.125 && seed == [ScratchAt(lp.buffer, 3)] && |y| == 4
    requires y[0] == seed[0] + 0.5 * (1.0 - seed[0])
    requires forall i :: 1 <= i < 4 ==> y[i] == y[i - 1] + 0.5 * (1.0 - y[i - 1])
    ensures r == Read(lp, AudioFormat(1, 8), b, Ones)
    ensures r.samples == y && r.source.buffer == y && r.source.rc == 0.125
  {
    HalfCoefficient();
    r := Read(lp, AudioFormat(1, 8), b, Ones);
    var ones := [1.0, 1.0, 1.0, 1.0];
    assert ones[..4] == ones;
    assert LastFrame(Resize(lp.buffer, 4)[..4], 1) == seed;
    assert IsLowPassed(0.5, ones, seed, y);
    Unique(LowPassKernel(0.5), ones, seed, seed, y, r.samples[..4]);
    assert r.samples == r.samples[..4];
    assert r.source.buffer == r.source.buffer[..4];
  }
}

=== FILE: mixer.dfy ===
/** `BasicMixer`: sums every source it holds into the caller's buffer.

    The first source reads straight into the caller's buffer; every later
    source reads into the mixer's scratch vector, and the WHOLE scratch
    vector is added in, including what a source left unwritten past its
    count (stale values from an earlier source or an earlier call). The
    reported count is the largest count of any source, and a gain, if set,
    scales the sum. Sources live under fresh keys; the order the slot map
    visits them in is a parameter of a read.
 */
module Mixer {
  import opened Core

  datatype BasicMixer<S> = BasicMixer(
    buffer: seq<real>, coefficient: Option<real>, format: AudioFormat,
    sources: map<nat, S>, nextKey: nat)

  /** Every key in use was handed out before `nextKey`. */
  predicate Valid<S>(m: BasicMixer<S>)
  {
    forall k :: k in m.sources ==> k < m.nextKey
  }

  function New<S>(format: AudioFormat, coefficient: Option<real>): (m: BasicMixer<S>)
    ensures Valid(m)
    ensures m.sources == map[] && m.buffer == []
    ensures m.format == format && m.coefficient == coefficient
  {
    BasicMixer([], coefficient, format, map[], 0)
  }

  /** Adding a source asserts that it plays in the mixer's format; the
      source goes in under a key no other source has, and nothing else
      changes. */
  function AddSource<S>(m: BasicMixer<S>, source: S, sourceFormat: AudioFormat): (r: (BasicMixer<S>, nat))
    requires Valid(m) && sourceFormat == m.format
    ensures Valid(r.0)
    ensures r.1 !in m.sources && r.0.sources == m.sources[r.1 := source]
    ensures r.0.buffer == m.buffer && r.0.coefficient == m.coefficient && r.0.format == m.format
  {
    (m.(sources := m.sources[m.nextKey := source], nextKey := m.nextKey + 1), m.nextKey)
  }

  /** Removing a key drops that source only; an unknown key changes nothing. */
  function RemoveSource<S>(m: BasicMixer<S>, key: nat): (r: BasicMixer<S>)
    ensures Valid(m) ==> Valid(r)
    ensures key !in r.sources
    ensures forall k :: k != key ==> (k in r.sources <==> k in m.sources)
    ensures forall k :: k in r.sources ==> r.sources[k] == m.sources[k]
    ensures r.buffer == m.buffer && r.coefficient == m.coefficient && r.format == m.format
  {
    m.(sources := m.sources - {key})
  }

  /** Removing the key `AddSource` returned restores the source set. */
  lemma AddThenRemove<S>(m: BasicMixer<S>, source: S, sourceFormat: AudioFormat)
    requires Valid(m) && sourceFormat == m.format
    ensures var (m', key) := AddSource(m, source, sourceFormat);
      RemoveSource(m', key).sources == m.sources
  {
    var (m', key) := AddSource(m, source, sourceFormat);
    assert RemoveSource(m', key).sources.Keys == m.sources.Keys;
  }

  // ---------------------------------------------------------------------
  // Reading

  /** The optional gain. */
  function Scale(coefficient: Option<real>, x: real): real
  {
    match coefficient
    case None => x
    case Some(c) => x * c
  }

  /** `order` visits every source exactly once. */
  predicate IsOrder<S>(order: seq<nat>, sources: map<nat, S>)
  {
    && (forall i, j :: 0 <= i < j < |order| ==> order[i] != order[j])
    && (forall i :: 0 <= i < |order| ==> order[i] in sources)
    && (forall k :: k in sources ==> k in order)
  }

  /** The pulls of the later sources, each reading into the scratch vector
      the previous one left behind. */
  function Chain<S>(keys: seq<nat>, sources: map<nat, S>, fmt: AudioFormat, n: nat, scratch: seq<real>, step: Reader<S>): (c: seq<Pulled<S>>)
    requires forall i :: 0 <= i < |keys| ==> keys[i] in sources
    ensures |c| == |keys|
    decreases |keys|
  {
    if |keys| == 0 then []
    else
      var p := step(sources[keys[0]], fmt, Resize(scratch, n));
      [p] + Chain(keys[1..], sources, fmt, n, p.samples, step)
  }

  /** The sum of the pulls' buffers at index `i`. */
  function SumAt<S>(c: seq<Pulled<S>>, i: nat): real
    decreases |c|
  {
    if |c| == 0 then 0.0 else ScratchAt(c[0].samples, i) + SumAt(c[1..], i)
  }

  /** The largest count of the pulls, `Good` counting as `n`. */
  function MaxCount<S>(c: seq<Pulled<S>>, n: nat): nat
    decreases |c|
  {
    if |c| == 0 then 0 else Max(Written(c[0].result, n), MaxCount(c[1..], n))
  }

  /** `MaxCount` is an upper bound of the counts, and attained by one of them. */
  lemma {:induction false} MaxCountIsMax<S>(c: seq<Pulled<S>>, n: nat)
    ensures forall j :: 0 <= j < |c| ==> Written(c[j].result, n) <= MaxCount(c, n)
    ensures |c| > 0 ==> exists j :: 0 <= j < |c| && Written(c[j].result, n) == MaxCount(c, n)
    decreases |c|
  {
    if |c| > 0 {
      MaxCountIsMax(c[1..], n);
      forall j | 1 <= j < |c|
        ensures Written(c[j].result, n) <= MaxCount(c, n)
      {
        assert c[j] == c[1..][j - 1];
      }
      if |c| > 1 && MaxCount(c[1..], n) > Written(c[0].result, n) {
        var j :| 0 <= j < |c[1..]| && Written(c[1..][j].result, n) == MaxCount(c[1..], n);
        assert c[j + 1] == c[1..][j];
      }
    }
  }

  /** The sum so far, the largest count so far, the scratch vector and the
      sources' new states. */
  datatype Mix<S> = Mix(sum: seq<real>, written: nat, scratch: seq<real>, states: map<nat, S>)

  /** Pointwise addition of two buffers of one length. */
  function Add(a: seq<real>, b: seq<real>): (r: seq<real>)
    requires |a| == |b|
    ensures |r| == |a| && forall i :: 0 <= i < |a| ==> r[i] == a[i] + b[i]
  {
    seq(|a|, i requires 0 <= i < |a| => a[i] + b[i])
  }

  /** The loop over the later sources. */
  function MixRest<S(!new)>(keys: seq<nat>, sources: map<nat, S>, fmt: AudioFormat, n: nat, acc: Mix<S>, step: Reader<S>): (r: Mix<S>)
    requires KeepsLength(step)
    requires forall i :: 0 <= i < |keys| ==> keys[i] in sources
    requires |acc.sum| == n
    ensures |r.sum| == n
    decreases |keys|
  {
    if |keys| == 0 then acc
    else
      var k := keys[0];
      var p := step(sources[k], fmt, Resize(acc.scratch, n));
      MixRest(keys[1..], sources, fmt, n, Next(acc, k, p, n), step)
  }

  /** One later source added in: its whole buffer, its count, its buffer
      as the new scratch vector, its new state. */
  function Next<S>(acc: Mix<S>, k: nat, p: Pulled<S>, n: nat): (r: Mix<S>)
    requires |acc.sum| == |p.samples|
  {
    Mix(Add(acc.sum, p.samples), Max(acc.written, Written(p.result, n)), p.samples, acc.states[k := p.source])
  }

  /** Unrolling `Chain` once. */
  lemma ChainCons<S>(keys: seq<nat>, sources: map<nat, S>, fmt: AudioFormat, n: nat, scratch: seq<real>, step: Reader<S>)
    requires forall i :: 0 <= i < |keys| ==> keys[i] in sources
    requires |keys| > 0
    ensures var c := Chain(keys, sources, fmt, n, scratch, step);
      var p := step(sources[keys[0]], fmt, Resize(scratch, n));
      c[0] == p && c[1..] == Chain(keys[1..], sources, fmt, n, p.samples, step)
  {
  }

  /** The loop's sum is the first buffer plus every later pull's buffer. */
  lemma {:induction false} MixRestSum<S(!new)>(keys: seq<nat>, sources: map<nat, S>, fmt: AudioFormat, n: nat, acc: Mix<S>, step: Reader<S>)
    requires KeepsLength(step)
    requires forall i :: 0 <= i < |keys| ==> keys[i] in sources
    requires |acc.sum| == n
    ensures var c := Chain(keys, sources, fmt, n, acc.scratch, step);
      var r := MixRest(keys, sources, fmt, n, acc, step);
      forall i :: 0 <= i < n ==> r.sum[i] == acc.sum[i] + SumAt(c, i)
    decreases |keys|
  {
    if |keys| > 0 {
      var k := keys[0];
      var p := step(sources[k], fmt, Resize(acc.scratch, n));
      ChainCons(keys, sources, fmt, n, acc.scratch, step);
      MixRestSum(keys[1..], sources, fmt, n, Next(acc, k, p, n), step);
    }
  }

  /** The loop's count is the largest count, and its scratch vector what
      the last pull left. */
  lemma {:induction false} MixRestCount<S(!new)>(keys: seq<nat>, sources: map<nat, S>, fmt: AudioFormat, n: nat, acc: Mix<S>, step: Reader<S>)
    requires KeepsLength(step)
    requires forall i :: 0 <= i < |keys| ==> keys[i] in sources
    requires |acc.sum| == n
    ensures var c := Chain(keys, sources, fmt, n, acc.scratch, step);
      var r := MixRest(keys, sources, fmt, n, acc, step);
      && r.written == Max(acc.written, MaxCount(c, n))
      && r.scratch == (if |c| == 0 then acc.scratch else c[|c| - 1].samples)
    decreases |keys|
  {
    if |keys| > 0 {
      var k := keys[0];
      var p := step(sources[k], fmt, Resize(acc.scratch, n));
      ChainCons(keys, sources, fmt, n, acc.scratch, step);
      MixRestCount(keys[1..], sources, fmt, n, Next(acc, k, p, n), step);
    }
  }

  /** Each visited source gets the state its pull returned; nothing else
      changes. */
  lemma {:induction false} MixRestStates<S(!new)>(keys: seq<nat>, sources: map<nat, S>, fmt: AudioFormat, n: nat, acc: Mix<S>, step: Reader<S>)
    requires KeepsLength(step)
    requires forall i :: 0 <= i < |keys| ==> keys[i] in sources
    requires forall i, j :: 0 <= i < j < |keys| ==> keys[i] != keys[j]
    requires |acc.sum| == n
    ensures var c := Chain(keys, sources, fmt, n, acc.scratch, step);
      var r := MixRest(keys, sources, fmt, n, acc, step);
      && (forall j :: 0 <= j < |keys| ==> keys[j] in r.states && r.states[keys[j]] == c[j].source)
      && (forall k :: k !in keys ==> (k in r.states <==> k in acc.states))
      && (forall k :: k in acc.states && k !in keys ==> r.states[k] == acc.states[k])
    decreases |keys|
  {
    if |keys| > 0 {
      var k := keys[0];
      var p := step(sources[k], fmt, Resize(acc.scratch, n));
      var rest := keys[1..];
      ChainCons(keys, sources, fmt, n, acc.scratch, step);
      MixRestStates(rest, sources, fmt, n, Next(acc, k, p, n), step);
      var c := Chain(keys, sources, fmt, n, acc.scratch, step);
      var r := MixRest(keys, sources, fmt, n, acc, step);
      assert k !in rest;
      forall j | 1 <= j < |keys|
        ensures keys[j] in r.states && r.states[keys[j]] == c[j].source
      {
        assert keys[j] == rest[j - 1] && c[j] == c[1..][j - 1];
      }
    }
  }

  /** The loop's keys are the ones it started with and the ones it visited. */
  lemma {:induction false} MixRestKeys<S(!new)>(keys: seq<nat>, sources: map<nat, S>, fmt: AudioFormat, n: nat, acc: Mix<S>, step: Reader<S>)
    requires KeepsLength(step)
    requires forall i :: 0 <= i < |keys| ==> keys[i] in sources
    requires |acc.sum| == n
    ensures forall k :: k in MixRest(keys, sources, fmt, n, acc, step).states <==> k in acc.states || k in keys
    decreases |keys|
  {
    if |keys| > 0 {
      var p := step(sources[keys[0]], fmt, Resize(acc.scratch, n));
      MixRestKeys(keys[1..], sources, fmt, n, Next(acc, keys[0], p, n), step);
      assert keys == [keys[0]] + keys[1..];
    }
  }

  /** What a read demands: a source fills the slice it is given without
      changing its length, and the visiting order covers the source set. */
  ghost predicate CanRead<S(!new)>(m: BasicMixer<S>, order: seq<nat>, step: Reader<S>)
  {
    KeepsLength(step) && IsOrder(order, m.sources)
  }

  /** The gain applied to a whole buffer. */
  function Gain(coefficient: Option<real>, v: seq<real>): (r: seq<real>)
    ensures |r| == |v| && forall i :: 0 <= i < |v| ==> r[i] == Scale(coefficient, v[i])
  {
    seq(|v|, i requires 0 <= i < |v| => Scale(coefficient, v[i]))
  }

  /** The first source's pull, into the caller's buffer. */
  function First<S>(m: BasicMixer<S>, samples: seq<real>, order: seq<nat>, step: Reader<S>): Pulled<S>
    requires |order| > 0 && order[0] in m.sources
  {
    step(m.sources[order[0]], m.format, samples)
  }

  /** The later sources' pulls, into the scratch vector. */
  function Later<S>(m: BasicMixer<S>, samples: seq<real>, order: seq<nat>, step: Reader<S>): (c: seq<Pulled<S>>)
    requires |order| > 0 && forall i :: 0 <= i < |order| ==> order[i] in m.sources
    ensures |c| == |order| - 1
  {
    assert forall j :: 1 <= j < |order| ==> order[j] == order[1..][j - 1];
    Chain(order[1..], m.sources, m.format, |samples|, m.buffer, step)
  }

  /** The loop's starting point: the first buffer, its count, the scratch
      vector as the previous call left it. */
  function Start<S>(m: BasicMixer<S>, samples: seq<real>, order: seq<nat>, step: Reader<S>): Mix<S>
    requires |order| > 0 && order[0] in m.sources
  {
    var first := First(m, samples, order, step);
    Mix(first.samples, Written(first.result, |samples|), m.buffer, m.sources[order[0] := first.source])
  }

  function Read<S(!new)>(m: BasicMixer<S>, samples: seq<real>, order: seq<nat>, step: Reader<S>): (r: Pulled<BasicMixer<S>>)
    requires CanRead(m, order, step)
    ensures |r.samples| == |samples| && Conforms(r.result, |samples|) && r.result.state != Finished
    ensures r.source.coefficient == m.coefficient && r.source.format == m.format && r.source.nextKey == m.nextKey
    // the key counter still lies past every key, so sources can be added after a read
    ensures Valid(m) ==> Valid(r.source)
    // no sources: silence, reported Good
    ensures |order| == 0 ==>
      && (forall i :: 0 <= i < |samples| ==> r.samples[i] == 0.0)
      && r.result == GoodResult(|samples|) && r.source == m
  {
    var n := |samples|;
    if |order| == 0 then
      Pulled(m, Zeros(n), GoodResult(n))
    else
      var rest := order[1..];
      assert forall j :: 1 <= j < |order| ==> order[j] == rest[j - 1];
      var mix := MixRest(rest, m.sources, m.format, n, Start(m, samples, order, step), step);
      MixRestKeys(rest, m.sources, m.format, n, Start(m, samples, order, step), step);
      var result := if mix.written < n then UnderrunResult(mix.written) else GoodResult(n);
      Pulled(m.(buffer := mix.scratch, sources := mix.states), Gain(m.coefficient, mix.sum), result)
  }

  /** Each output sample is the gained sum of the first source's buffer and
      every later source's whole scratch vector at that index. */
  lemma ReadSum<S(!new)>(m: BasicMixer<S>, samples: seq<real>, order: seq<nat>, step: Reader<S>)
    requires CanRead(m, order, step) && |order| > 0
    ensures var first, c := First(m, samples, order, step), Later(m, samples, order, step);
      var r := Read(m, samples, order, step);
      forall i :: 0 <= i < |samples| ==> r.samples[i] == Scale(m.coefficient, first.samples[i] + SumAt(c, i))
  {
    var rest := order[1..];
    assert forall j :: 1 <= j < |order| ==> order[j] == rest[j - 1];
    MixRestSum(rest, m.sources, m.format, |samples|, Start(m, samples, order, step), step);
  }

  /** The count is the largest count of any source, reported as `Underrun`
      below the buffer length and as `Good` otherwise; the scratch vector is
      what the last source left in it. */
  lemma ReadCount<S(!new)>(m: BasicMixer<S>, samples: seq<real>, order: seq<nat>, step: Reader<S>)
    requires CanRead(m, order, step) && |order| > 0
    ensures var n := |samples|;
      var first, c := First(m, samples, order, step), Later(m, samples, order, step);
      var w := Max(Written(first.result, n), MaxCount(c, n));
      var r := Read(m, samples, order, step);
      && r.result == (if w < n then UnderrunResult(w) else GoodResult(n))
      && r.source.buffer == (if |c| == 0 then m.buffer else c[|c| - 1].samples)
  {
    var rest := order[1..];
    assert forall j :: 1 <= j < |order| ==> order[j] == rest[j - 1];
    MixRestCount(rest, m.sources, m.format, |samples|, Start(m, samples, order, step), step);
  }

  /** Every source keeps its key and takes the state its pull returned. */
  lemma ReadStates<S(!new)>(m: BasicMixer<S>, samples: seq<real>, order: seq<nat>, step: Reader<S>)
    requires CanRead(m, order, step) && |order| > 0
    ensures var first, c := First(m, samples, order, step), Later(m, samples, order, step);
      var r := Read(m, samples, order, step);
      && r.source.sources.Keys == m.sources.Keys
      && r.source.sources[order[0]] == first.source
      && (forall j :: 1 <= j < |order| ==> r.source.sources[order[j]] == c[j - 1].source)
  {
    var rest := order[1..];
    OrderSplit(m, order);
    var start := Start(m, samples, order, step);
    var mix := ReadSources(m, samples, order, step);
    MixRestStates(rest, m.sources, m.format, |samples|, start, step);
    var r := Read(m, samples, order, step);
    assert r.source.sources.Keys == m.sources.Keys by {
      forall k | k in m.sources
        ensures k in mix.states
      {
        if k in rest {
          var j :| 0 <= j < |rest| && rest[j] == k;
        }
      }
    }
  }

  /** The sources a read leaves behind are the states its loop collected. */
  lemma ReadSources<S(!new)>(m: BasicMixer<S>, samples: seq<real>, order: seq<nat>, step: Reader<S>) returns (mix: Mix<S>)
    requires CanRead(m, order, step) && |order| > 0
    ensures forall i :: 0 <= i < |order| - 1 ==> order[1..][i] in m.sources
    ensures mix == MixRest(order[1..], m.sources, m.format, |samples|, Start(m, samples, order, step), step)
    ensures Read(m, samples, order, step).source.sources == mix.states
    ensures Later(m, samples, order, step) == Chain(order[1..], m.sources, m.format, |samples|, m.buffer, step)
  {
    var rest := order[1..];
    assert forall j :: 1 <= j < |order| ==> order[j] == rest[j - 1];
    mix := MixRest(rest, m.sources, m.format, |samples|, Start(m, samples, order, step), step);
  }

  /** An order is its first key followed by the distinct other keys. */
  lemma OrderSplit<S>(m: BasicMixer<S>, order: seq<nat>)
    requires IsOrder(order, m.sources) && |order| > 0
    ensures var rest := order[1..];
      && order[0] in m.sources && order[0] !in rest
      && (forall j :: 1 <= j < |order| ==> order[j] == rest[j - 1])
      && (forall i :: 0 <= i < |rest| ==> rest[i] in m.sources)
      && (forall i, j :: 0 <= i < j < |rest| ==> rest[i] != rest[j])
      && (forall k :: k in m.sources ==> k == order[0] || k in rest)
  {
    var rest := order[1..];
    forall k | k in m.sources && k != order[0]
      ensures k in rest
    {
      var j :| 0 <= j < |order| && order[j] == k;
      assert k == rest[j - 1];
    }
  }

  // ---------------------------------------------------------------------
  // Consequences

  /** The state is `Underrun` exactly when every source wrote less than the
      buffer, and `Good` otherwise. */
  lemma UnderrunIffAllShort<S(!new)>(m: BasicMixer<S>, samples: seq<real>, order: seq<nat>, step: Reader<S>)
    requires CanRead(m, order, step) && |order| > 0
    ensures var n := |samples|;
      var first, c := First(m, samples, order, step), Later(m, samples, order, step);
      var r := Read(m, samples, order, step);
      && (r.result.state == Underrun <==>
            Written(first.result, n) < n && forall j :: 0 <= j < |c| ==> Written(c[j].result, n) < n)
      && (r.result.state == Good <==> r.result.state != Underrun)
  {
    ReadCount(m, samples, order, step);
    MaxCountIsMax(Later(m, samples, order, step), |samples|);
  }

  /** With one source the mixer is that source, gained, with its count. */
  lemma SingleSource<S(!new)>(m: BasicMixer<S>, samples: seq<real>, order: seq<nat>, step: Reader<S>)
    requires CanRead(m, order, step) && |order| == 1
    ensures var n := |samples|;
      var first := First(m, samples, order, step);
      var r := Read(m, samples, order, step);
      && (forall i :: 0 <= i < n ==> r.samples[i] == Scale(m.coefficient, first.samples[i]))
      && r.result == (if Written(first.result, n) < n then UnderrunResult(Written(first.result, n)) else GoodResult(n))
      && r.source.buffer == m.buffer
  {
    ReadSum(m, samples, order, step);
    ReadCount(m, samples, order, step);
  }

  /** If no source reports more than the buffer, neither does the mixer's
      count, and the mixer reports exactly that count. */
  lemma CountBound<S(!new)>(m: BasicMixer<S>, samples: seq<real>, order: seq<nat>, step: Reader<S>)
    requires CanRead(m, order, step) && |order| > 0
    ensures var n := |samples|;
      var first, c := First(m, samples, order, step), Later(m, samples, order, step);
      var w := Max(Written(first.result, n), MaxCount(c, n));
      Written(first.result, n) <= n && (forall j :: 0 <= j < |c| ==> Written(c[j].result, n) <= n) ==>
        w <= n && Read(m, samples, order, step).result.read == w
  {
    ReadCount(m, samples, order, step);
    MaxCountIsMax(Later(m, samples, order, step), |samples|);
  }

  /** Removing a source that was just added gives back the same reads. */
  lemma AddRemoveRead<S(!new)>(m: BasicMixer<S>, source: S, sourceFormat: AudioFormat, samples: seq<real>, order: seq<nat>, step: Reader<S>)
    requires Valid(m) && sourceFormat == m.format && CanRead(m, order, step)
    ensures var (m', key) := AddSource(m, source, sourceFormat);
      var m'' := RemoveSource(m', key);
      CanRead(m'', order, step)
      && Read(m'', samples, order, step).samples == Read(m, samples, order, step).samples
      && Read(m'', samples, order, step).result == Read(m, samples, order, step).result
  {
    var (m', key) := AddSource(m, source, sourceFormat);
    AddThenRemove(m, source, sourceFormat);
    var m'' := RemoveSource(m', key);
    assert m'' == m.(nextKey := m.nextKey + 1);
  }

  /** An upstream that writes nothing: the buffer comes back as it went in,
      reported `Underrun(0)`. */
  function Idle(s: nat, fmt: AudioFormat, b: seq<real>): Pulled<nat>
  {
    Pulled(s, b, UnderrunResult(0))
  }

  /** The stale scratch vector is mixed in: two sources that write nothing
      still produce the caller's old sample plus the value the scratch
      vector kept from the previous call, while the mixer reports that
      nothing was written. */
  lemma StaleScratch()
    ensures var m := BasicMixer([5.0], None, AudioFormat(1, 8), map[0 := 0, 1 := 0], 2);
      var r := Read(m, [1.0], [0, 1], Idle);
      r.samples == [6.0] && r.result == UnderrunResult(0)
  {
    var m := BasicMixer([5.0], None, AudioFormat(1, 8), map[0 := 0, 1 := 0], 2);
    var order := [0, 1];
    assert IsOrder(order, m.sources);
    assert KeepsLength(Idle);
    ReadSum(m, [1.0], order, Idle);
    ReadCount(m, [1.0], order, Idle);
    var c := Later(m, [1.0], order, Idle);
    assert c == [Idle(0, m.format, [5.0])] by {
      assert order[1..] == [1];
      assert Resize(m.buffer, 1) == [5.0];
    }
    assert SumAt(c, 0) == 5.0 by {
      assert c[1..] == [];
    }
  }
}

=== FILE: playback.dfy ===
/** The output device callback: each time the device wants samples it
    makes one read of its source, if it has one, in the device's format,
    and silences whatever the read did not write.

    Opening the device and the lock around the shared source are not
    modelled; the source is owned by the callback.
 */
module Playback {
  import opened Core

  datatype OutputCallback<S> = OutputCallback(format: AudioFormat, source: Option<S>)

  /** What a callback demands of its source: the slice keeps its length. */
  predicate CanPlay<S>(cb: OutputCallback<S>, samples: seq<real>, step: Reader<S>)
  {
    cb.source.Some? ==> |step(cb.source.value, cb.format, samples).samples| == |samples|
  }

  /** Silence past the first `n` samples of `v`. */
  function SilenceFrom(v: seq<real>, n: nat): (r: seq<real>)
    ensures |r| == |v|
  {
    seq(|v|, i requires 0 <= i < |v| => if i < n then v[i] else 0.0)
  }

  /** One device callback: the new callback state and the samples the
      device plays. An underrun is only logged, so it does not show. */
  function Callback<S>(cb: OutputCallback<S>, samples: seq<real>, step: Reader<S>): (r: (OutputCallback<S>, seq<real>))
    requires CanPlay(cb, samples, step)
    ensures r.0.format == cb.format && r.0.source.Some? == cb.source.Some?
    ensures |r.1| == |samples|
    // no source: all silence, nothing read
    ensures cb.source.None? ==> r.0 == cb && r.1 == Zeros(|samples|)
    // a source: the one read's written samples, then silence
    ensures cb.source.Some? ==>
      var p := step(cb.source.value, cb.format, samples);
      && r.0.source == Some(p.source)
      && (forall i :: 0 <= i < |samples| && i < p.result.read ==> r.1[i] == p.samples[i])
      && (forall i :: p.result.read <= i < |samples| ==> r.1[i] == 0.0)
  {
    match cb.source
    case None => (cb, Zeros(|samples|))
    case Some(s) =>
      var p := step(s, cb.format, samples);
      (cb.(source := Some(p.source)), SilenceFrom(p.samples, p.result.read))
  }

  /** The played buffer is the written prefix of the read followed by
      silence to the end. */
  lemma PrefixThenSilence<S>(cb: OutputCallback<S>, samples: seq<real>, step: Reader<S>)
    requires CanPlay(cb, samples, step) && cb.source.Some?
    ensures var p := step(cb.source.value, cb.format, samples);
      var w := Min(p.result.read, |samples|);
      Callback(cb, samples, step).1 == p.samples[..w] + Zeros(|samples| - w)
  {
  }

  /** Only the count a read reports matters, not its state: two sources
      that write the same samples and count play the same, whether they
      say `Good`, `Underrun` or `Finished`. */
  lemma StateIgnored<S>(cb: OutputCallback<S>, samples: seq<real>, step1: Reader<S>, step2: Reader<S>)
    requires CanPlay(cb, samples, step1) && CanPlay(cb, samples, step2) && cb.source.Some?
    requires var p1, p2 := step1(cb.source.value, cb.format, samples), step2(cb.source.value, cb.format, samples);
      p1.samples == p2.samples && p1.result.read == p2.result.read
    ensures Callback(cb, samples, step1).1 == Callback(cb, samples, step2).1
  {
  }

  /** A read that fills the buffer is played as it is. */
  lemma FullReadPlays<S>(cb: OutputCallback<S>, samples: seq<real>, step: Reader<S>)
    requires CanPlay(cb, samples, step) && cb.source.Some?
    requires step(cb.source.value, cb.format, samples).result.read >= |samples|
    ensures Callback(cb, samples, step).1 == step(cb.source.value, cb.format, samples).samples
  {
  }
}

=== FILE: tone.dfy ===
/** `SinWave`: a sine tone generator.

    Each frame holds one value, `amplitude * sin(phase)`, in every channel,
    and the phase then moves on by `2 * pi * frequency / sample_rate`. The
    sine is a parameter, and f32 rounding of the phase and of `sin` is not
    modelled: the phase is accumulated exactly, one increment per frame.
 */
module Tone {
  import opened Core

  datatype SinWave = SinWave(amplitude: real, phase: real, frequency: real)

  function New(amplitude: real, frequency: real): (w: SinWave)
    ensures w.phase == 0.0 && w.amplitude == amplitude && w.frequency == frequency
  {
    SinWave(amplitude, 0.0, frequency)
  }

  /** The phase step of one frame. */
  function Increment(w: SinWave, fmt: AudioFormat): real
    requires fmt.sampleRate > 0
  {
    Pi * 2.0 * w.frequency / fmt.sampleRate as real
  }

  /** The phase after `i` frames: one increment added per frame. */
  function Phase(w: SinWave, fmt: AudioFormat, i: nat): real
    requires fmt.sampleRate > 0
  {
    if i == 0 then w.phase else Phase(w, fmt, i - 1) + Increment(w, fmt)
  }

  /** The sine scaled by the amplitude. */
  function Level(amplitude: real, s: real): real
  {
    amplitude * s
  }

  /** The value of frame `i` of a read that starts at the wave's phase. */
  function FrameValue(w: SinWave, fmt: AudioFormat, sin: real -> real, i: nat): real
    requires fmt.sampleRate > 0
  {
    Level(w.amplitude, sin(Phase(w, fmt, i)))
  }

  /** The whole frames in `n` samples. */
  function Frames(n: nat, fmt: AudioFormat): nat
    requires fmt.channels > 0
  {
    Quotient(n, fmt.channels as nat)
  }

  /** The samples the whole frames take up. */
  function WholeFrames(n: nat, fmt: AudioFormat): (m: nat)
    requires fmt.channels > 0
    ensures m <= n < m + fmt.channels as nat
  {
    QuotientFits(n, fmt.channels as nat);
    Times(Frames(n, fmt), fmt.channels as nat)
  }

  /** The frame count is the Rust code's integer division. */
  lemma FramesIsDivision(n: nat, fmt: AudioFormat)
    requires fmt.channels > 0
    ensures Frames(n, fmt) == n / fmt.channels as nat
    ensures WholeFrames(n, fmt) == n - n % fmt.channels as nat
  {
    QuotientIsDivision(n, fmt.channels as nat);
  }

  /** The phase after `i` frames is the starting phase plus `i` increments. */
  lemma {:induction false} PhaseIsLinear(w: SinWave, fmt: AudioFormat, i: nat)
    requires fmt.sampleRate > 0
    ensures Phase(w, fmt, i) == w.phase + i as real * Increment(w, fmt)
  {
    if i > 0 {
      PhaseIsLinear(w, fmt, i - 1);
      var inc := Increment(w, fmt);
      assert i as real * inc == (i - 1) as real * inc + inc;
    }
  }

  /** Fills every whole frame of `samples`; the samples past the last whole
      frame are left as they were, though the result counts them. A zero
      channel count divides by zero in the Rust code. */
  method Read(w: SinWave, fmt: AudioFormat, samples: seq<real>, sin: real -> real)
    returns (w': SinWave, out: seq<real>, result: ReadResult)
    requires fmt.channels > 0 && fmt.sampleRate > 0
    ensures result == GoodResult(|samples|)
    ensures |out| == |samples|
    ensures var c, whole := fmt.channels as nat, WholeFrames(|samples|, fmt);
      && (forall j :: whole <= j < |samples| ==> out[j] == samples[j])
      && (forall j :: 0 <= j < whole ==> out[j] == FrameValue(w, fmt, sin, Quotient(j, c)))
    ensures w'.amplitude == w.amplitude && w'.frequency == w.frequency
    ensures w'.phase == Phase(w, fmt, Frames(|samples|, fmt))
  {
    var c := fmt.channels as nat;
    var frames := Frames(|samples|, fmt);
    var limit := WholeFrames(|samples|, fmt);
    out := samples;
    w' := w;
    var i, base := 0, 0;
    while i < frames
      invariant i <= frames && base == Times(i, c) && base <= limit && |out| == |samples|
      invariant forall j :: base <= j < |samples| ==> out[j] == samples[j]
      invariant w'.amplitude == w.amplitude && w'.frequency == w.frequency
      invariant w'.phase == Phase(w, fmt, i)
      invariant forall j :: 0 <= j < base ==> out[j] == FrameValue(w, fmt, sin, Quotient(j, c))
    {
      var amplitude := Level(w'.amplitude, sin(w'.phase));
      TimesMono(i + 1, frames, c);
      out := FillFrame(out, base, c, amplitude);
      FrameValues(w, fmt, sin, i, c, out);
      w' := w'.(phase := w'.phase + Increment(w, fmt));
      i, base := i + 1, base + c;
    }
    result := GoodResult(|samples|);
  }

  /** The samples of frame `i`, all holding its value, are that frame's. */
  lemma FrameValues(w: SinWave, fmt: AudioFormat, sin: real -> real, i: nat, c: nat, out: seq<real>)
    requires fmt.sampleRate > 0 && c > 0 && Times(i, c) + c <= |out|
    requires forall j :: Times(i, c) <= j < Times(i, c) + c ==> out[j] == FrameValue(w, fmt, sin, i)
    ensures forall j :: Times(i, c) <= j < Times(i, c) + c ==> out[j] == FrameValue(w, fmt, sin, Quotient(j, c))
  {
    forall j | Times(i, c) <= j < Times(i, c) + c
      ensures out[j] == FrameValue(w, fmt, sin, Quotient(j, c))
    {
      QuotientTimes(i, j - Times(i, c), c);
    }
  }

  /** The inner loop: one value into the `c` samples from `base`. */
  method FillFrame(samples: seq<real>, base: nat, c: nat, value: real) returns (out: seq<real>)
    requires base + c <= |samples|
    ensures |out| == |samples|
    ensures forall j :: 0 <= j < |samples| && !(base <= j < base + c) ==> out[j] == samples[j]
    ensures forall j :: base <= j < base + c ==> out[j] == value
  {
    out := samples;
    var channel := 0;
    while channel < c
      invariant channel <= c && |out| == |samples|
      invariant forall j :: 0 <= j < |samples| && !(base <= j < base + channel) ==> out[j] == samples[j]
      invariant forall j :: base <= j < base + channel ==> out[j] == value
    {
      out := out[base + channel := value];
      channel := channel + 1;
    }
  }

  /** A read that ends at some phase hands the next read the frames that
      follow: frame `k` of the next read is frame `frames + k` of a read
      from the old phase. */
  lemma {:induction false} PhaseContinues(w: SinWave, fmt: AudioFormat, frames: nat, k: nat)
    requires fmt.sampleRate > 0
    ensures Phase(w.(phase := Phase(w, fmt, frames)), fmt, k) == Phase(w, fmt, frames + k)
  {
    if k > 0 {
      PhaseContinues(w, fmt, frames, k - 1);
    }
  }

  /** So the value of every frame continues across reads. */
  lemma FrameValueContinues(w: SinWave, fmt: AudioFormat, sin: real -> real, frames: nat, k: nat)
    requires fmt.sampleRate > 0
    ensures FrameValue(w.(phase := Phase(w, fmt, frames)), fmt, sin, k) == FrameValue(w, fmt, sin, frames + k)
  {
    PhaseContinues(w, fmt, frames, k);
  }
}

=== FILE: wav_decoder.dfy ===
/** `WavDecoder`: a forward cursor over decoded samples, and the decoding of
    the WAV payload's bytes into samples.

    Loading the file is SDL's work and is not modelled; a decoder is its
    decoded `data`, the file's format and a read position.
 */
module WavDecoding {
  import opened Core

  datatype WavDecoder = WavDecoder(data: seq<real>, format: AudioFormat, position: nat)

  /** The cursor never passes the end of the data. */
  predicate Valid(d: WavDecoder)
  {
    d.position <= |d.data|
  }

  /** A freshly loaded decoder starts at the beginning. */
  function New(data: seq<real>, format: AudioFormat): (d: WavDecoder)
    ensures Valid(d) && d.position == 0 && d.data == data && d.format == format
  {
    WavDecoder(data, format, 0)
  }

  /** Copies as much of the rest of the data as fits; a buffer longer than
      the rest gets the rest, the remainder of the buffer is left as it was,
      and the read reports `Finished`. A format other than the decoder's
      fails the Rust code's assertion. */
  function Read(d: WavDecoder, fmt: AudioFormat, samples: seq<real>): (r: Pulled<WavDecoder>)
    requires Valid(d) && d.format == fmt
    ensures r.source.data == d.data && r.source.format == d.format
    ensures |r.samples| == |samples|
    // what was written is exactly the data the cursor moved over
    ensures && d.position <= r.source.position <= |r.source.data| == |d.data|
            && r.result.read == r.source.position - d.position <= |samples| == |r.samples|
            && r.samples[..r.result.read] == d.data[d.position..r.source.position]
            && (forall i :: r.result.read <= i < |samples| ==> r.samples[i] == samples[i])
    // `Good` while the data lasts, `Finished` at the end of it
    ensures r.result.state != Underrun
    ensures r.result.state == Good <==> |samples| <= |d.data| - d.position
    ensures r.result.state == Good ==> r.result.read == |samples|
    ensures r.result.state == Finished ==> r.source.position == |d.data|
  {
    var remaining := |d.data| - d.position;
    if |samples| <= remaining then
      var next := d.position + |samples|;
      Pulled(d.(position := next), d.data[d.position..next], GoodResult(|samples|))
    else
      var tail := d.data[d.position..];
      assert (tail + samples[remaining..])[..remaining] == tail;
      Pulled(d.(position := |d.data|), tail + samples[remaining..], FinishedResult(remaining))
  }

  /** What a run of reads into `buffers` produced: the decoder after them,
      the written prefixes one after another, and whether any said
      `Finished`. */
  datatype Session = Session(decoder: WavDecoder, written: seq<real>, finished: bool)

  function Replay(d: WavDecoder, buffers: seq<seq<real>>): (s: Session)
    requires Valid(d)
    ensures Valid(s.decoder) && s.decoder.format == d.format && s.decoder.data == d.data
    decreases |buffers|
  {
    if |buffers| == 0 then Session(d, [], false)
    else
      var r := Read(d, d.format, buffers[0]);
      var rest := Replay(r.source, buffers[1..]);
      Session(rest.decoder, r.samples[..r.result.read] + rest.written, r.result.state == Finished || rest.finished)
  }

  /** Successive reads hand out the data in order, with nothing skipped or
      repeated; once one of them has said `Finished` the cursor is at the
      end, so everything from the starting position was handed out. */
  lemma {:induction false} ReplayIsData(d: WavDecoder, buffers: seq<seq<real>>)
    requires Valid(d)
    ensures var s := Replay(d, buffers);
      && d.position <= s.decoder.position
      && s.written == d.data[d.position..s.decoder.position]
      && (s.finished ==> s.written == d.data[d.position..])
    decreases |buffers|
  {
    if |buffers| > 0 {
      var r := Read(d, d.format, buffers[0]);
      ReplayIsData(r.source, buffers[1..]);
      var rest := Replay(r.source, buffers[1..]);
      Adjacent(d.data, d.position, r.source.position, rest.decoder.position);
      if r.result.state == Finished {
        Exhausted(r.source, buffers[1..]);
      }
    }
  }

  /** Two adjacent slices make up the slice that spans them. */
  lemma Adjacent(v: seq<real>, a: nat, b: nat, c: nat)
    requires a <= b <= c <= |v|
    ensures v[a..b] + v[b..c] == v[a..c]
  {
  }

  /** Reads after the end change nothing and write nothing. */
  lemma {:induction false} Exhausted(d: WavDecoder, buffers: seq<seq<real>>)
    requires Valid(d) && d.position == |d.data|
    ensures Replay(d, buffers).decoder == d && Replay(d, buffers).written == []
    decreases |buffers|
  {
    if |buffers| > 0 {
      var r := Read(d, d.format, buffers[0]);
      assert r.source == d;
      Exhausted(d, buffers[1..]);
    }
  }

  /** At the end of the data a non-empty buffer reads `Finished(0)` and an
      empty one `Good(0)`, and the decoder stays where it is. */
  lemma AtEnd(d: WavDecoder, samples: seq<real>)
    requires Valid(d) && d.position == |d.data|
    ensures var r := Read(d, d.format, samples);
      && r.source == d && r.samples == samples
      && r.result == (if |samples| == 0 then GoodResult(0) else FinishedResult(0))
  {
  }

  /** Decoding from the start hands out the whole data, in order, once a
      read says `Finished`. */
  lemma WholeFile(data: seq<real>, format: AudioFormat, buffers: seq<seq<real>>)
    requires Replay(New(data, format), buffers).finished
    ensures Replay(New(data, format), buffers).written == data
  {
    ReplayIsData(New(data, format), buffers);
  }

  // Decoding the payload

  type Byte = b: int | 0 <= b < 256

  /** The sample encodings SDL reports for a WAV payload. */
  datatype SampleFormat = F32LSB | F32MSB | S32LSB | S32MSB | S16LSB | S16MSB | S8 | U16LSB | U16MSB | U8

  /** The bytes of one sample. */
  function Width(f: SampleFormat): nat
  {
    match f
    case F32LSB | F32MSB | S32LSB | S32MSB => 4
    case S16LSB | S16MSB | U16LSB | U16MSB => 2
    case S8 | U8 => 1
  }

  /** The unsigned value of bytes with the least significant first. */
  function LittleEndian(bytes: seq<Byte>): nat
  {
    if |bytes| == 0 then 0 else bytes[0] + 256 * LittleEndian(bytes[1..])
  }

  /** The unsigned value of bytes with the most significant first. */
  function BigEndian(bytes: seq<Byte>): nat
  {
    if |bytes| == 0 then 0 else 256 * BigEndian(bytes[..|bytes| - 1]) + bytes[|bytes| - 1]
  }

  function Reverse(bytes: seq<Byte>): (r: seq<Byte>)
    ensures |r| == |bytes|
  {
    if |bytes| == 0 then [] else [bytes[|bytes| - 1]] + Reverse(bytes[..|bytes| - 1])
  }

  /** Reading most significant first is reading the reversed bytes least
      significant first. */
  lemma {:induction false} BigIsReversedLittle(bytes: seq<Byte>)
    ensures BigEndian(bytes) == LittleEndian(Reverse(bytes))
  {
    if |bytes| > 0 {
      BigIsReversedLittle(bytes[..|bytes| - 1]);
      assert Reverse(bytes)[1..] == Reverse(bytes[..|bytes| - 1]);
    }
  }

  /** Two's complement: an unsigned value below `2 * half` as a signed one. */
  function Signed(u: nat, half: nat): int
  {
    if u >= half then u - 2 * half else u
  }

  /** The value of one sample's bytes. `f32Bits` is the reinterpretation of
      32 bits as an IEEE single. The signed 32-bit divisor is
      `i32::MAX as f32`, which rounds to 2^31. */
  function Decode(f: SampleFormat, chunk: seq<Byte>, f32Bits: nat -> real): real
    requires |chunk| == Width(f)
  {
    match f
    case F32LSB => f32Bits(LittleEndian(chunk))
    case F32MSB => f32Bits(BigEndian(chunk))
    case S32LSB => Signed(LittleEndian(chunk), 0x8000_0000) as real / 2147483648.0
    case S32MSB => Signed(BigEndian(chunk), 0x8000_0000) as real / 2147483648.0
    case S16LSB => Signed(LittleEndian(chunk), 0x8000) as real / 32767.0
    case S16MSB => Signed(BigEndian(chunk), 0x8000) as real / 32767.0
    case S8 => Signed(chunk[0], 0x80) as real / 127.0
    case U16LSB => (LittleEndian(chunk) as real - 32768.0) / 32767.0
    case U16MSB => (BigEndian(chunk) as real - 32768.0) / 32767.0
    case U8 => (chunk[0] as real - 128.0) / 127.0
  }

  /** The payload cut into chunks of `w` bytes, in order; trailing bytes
      that do not fill a chunk are dropped. */
  function ChunksExact(bytes: seq<Byte>, w: nat): (parts: seq<seq<Byte>>)
    requires w > 0
    ensures forall k :: 0 <= k < |parts| ==> |parts[k]| == w
    decreases |bytes|
  {
    if |bytes| < w then [] else [bytes[..w]] + ChunksExact(bytes[w..], w)
  }

  /** Every whole chunk decoded, in order. */
  function Chunks(f: SampleFormat, bytes: seq<Byte>, f32Bits: nat -> real): (out: seq<real>)
  {
    var parts := ChunksExact(bytes, Width(f));
    seq(|parts|, k requires 0 <= k < |parts| => Decode(f, parts[k], f32Bits))
  }

  /** The divisibility each format's assertion demands, as written: the
      big-endian 16-bit arm tests the size of an f32, 4, where its sample
      is 2 bytes wide. The two formats without an assertion have width 1,
      which every length passes. */
  function GuardAsWritten(f: SampleFormat): nat
  {
    if f == S16MSB then 4 else Width(f)
  }

  /** The conversion as written; `None` is the failed assertion. Whatever
      passes its guard is a whole number of samples and decodes as intended. */
  function ConvertAsWritten(f: SampleFormat, bytes: seq<Byte>, f32Bits: nat -> real): (r: Option<seq<real>>)
    ensures r.Some? <==> |bytes| % GuardAsWritten(f) == 0
    ensures r.Some? ==> |bytes| % Width(f) == 0 && r == Convert(f, bytes, f32Bits)
  {
    Halves(|bytes|);
    if |bytes| % GuardAsWritten(f) != 0 then None else Some(Chunks(f, bytes, f32Bits))
  }

  /** The conversion with every assertion testing the sample width. */
  function Convert(f: SampleFormat, bytes: seq<Byte>, f32Bits: nat -> real): Option<seq<real>>
  {
    if |bytes| % Width(f) != 0 then None else Some(Chunks(f, bytes, f32Bits))
  }

  /** A payload of whole samples gives one sample per `Width(f)` bytes, and
      sample `k` is decoded from bytes `k * w` up to `(k + 1) * w` alone. */
  lemma ConvertWholeSamples(f: SampleFormat, bytes: seq<Byte>, f32Bits: nat -> real)
    ensures Convert(f, bytes, f32Bits).Some? <==> |bytes| % Width(f) == 0
    ensures Convert(f, bytes, f32Bits).Some? ==>
      var out, w := Convert(f, bytes, f32Bits).value, Width(f);
      && |out| == |bytes| / w
      && forall k :: 0 <= k < |out| ==> Times(k, w) + w <= |bytes| && out[k] == Decode(f, bytes[Times(k, w)..Times(k, w) + w], f32Bits)
  {
    var w := Width(f);
    var parts := ChunksExact(bytes, w);
    ChunksExactLength(bytes, w);
    QuotientIsDivision(|bytes|, w);
    forall k | 0 <= k < |parts|
      ensures Times(k, w) + w <= |bytes| && parts[k] == bytes[Times(k, w)..Times(k, w) + w]
    {
      ChunkAt(bytes, w, k);
    }
  }

  lemma {:induction false} ChunksExactLength(bytes: seq<Byte>, w: nat)
    requires w > 0
    ensures |ChunksExact(bytes, w)| == Quotient(|bytes|, w)
    decreases |bytes|
  {
    if |bytes| >= w {
      ChunksExactLength(bytes[w..], w);
    }
  }

  /** Chunk `k` is bytes `k * w` up to `(k + 1) * w`. */
  lemma {:induction false} ChunkAt(bytes: seq<Byte>, w: nat, k: nat)
    requires w > 0 && k < |ChunksExact(bytes, w)|
    ensures Times(k, w) + w <= |bytes|
    ensures ChunksExact(bytes, w)[k] == bytes[Times(k, w)..Times(k, w) + w]
    decreases k
  {
    if k > 0 {
      var rest := bytes[w..];
      assert ChunksExact(bytes, w)[k] == ChunksExact(rest, w)[k - 1];
      ChunkAt(rest, w, k - 1);
      var s := Times(k - 1, w);
      assert Times(k, w) == s + w;
      assert rest[s..s + w] == bytes[s + w..s + w + w];
    }
  }

  /** Each big-endian format decodes a chunk as its little-endian twin
      decodes the reversed chunk. */
  lemma MsbIsReversedLsb(chunk: seq<Byte>, f32Bits: nat -> real)
    ensures |chunk| == 4 ==> Decode(F32MSB, chunk, f32Bits) == Decode(F32LSB, Reverse(chunk), f32Bits)
    ensures |chunk| == 4 ==> Decode(S32MSB, chunk, f32Bits) == Decode(S32LSB, Reverse(chunk), f32Bits)
    ensures |chunk| == 2 ==> Decode(S16MSB, chunk, f32Bits) == Decode(S16LSB, Reverse(chunk), f32Bits)
    ensures |chunk| == 2 ==> Decode(U16MSB, chunk, f32Bits) == Decode(U16LSB, Reverse(chunk), f32Bits)
  {
    BigIsReversedLittle(chunk);
  }

  /** The unsigned formats are centred on their silence value. */
  lemma UnsignedSilence(f32Bits: nat -> real)
    ensures Decode(U8, [0x80], f32Bits) == 0.0
    ensures Decode(U16LSB, [0x00, 0x80], f32Bits) == 0.0
    ensures Decode(U16MSB, [0x80, 0x00], f32Bits) == 0.0
  {
    assert LittleEndian([0x00, 0x80]) == 0x8000 by {
      assert [0x00, 0x80][1..] == [0x80];
    }
    assert BigEndian([0x80, 0x00]) == 0x8000 by {
      assert [0x80, 0x00][..1] == [0x80];
    }
  }

  /** Where the as-written guard lets a payload through, it decodes as
      intended; it wrongly rejects only big-endian 16-bit payloads of an odd
      number of samples. */
  lemma AsWrittenAgrees(f: SampleFormat, bytes: seq<Byte>, f32Bits: nat -> real)
    ensures ConvertAsWritten(f, bytes, f32Bits).Some? ==> ConvertAsWritten(f, bytes, f32Bits) == Convert(f, bytes, f32Bits)
    ensures ConvertAsWritten(f, bytes, f32Bits) != Convert(f, bytes, f32Bits) <==> f == S16MSB && |bytes| % 4 == 2
  {
    if f == S16MSB {
      Halves(|bytes|);
    }
  }

  /** A count is even exactly when its remainder modulo 4 is 0 or 2. */
  lemma Halves(n: nat)
    ensures n % 2 == 0 <==> n % 4 == 0 || n % 4 == 2
  {
    var q, r := n / 4, n % 4;
    ModUnique(n, 2 * q + r / 2, r % 2, 2);
  }

  /** One big-endian 16-bit sample: the as-written guard rejects it, the
      intended one decodes it. */
  lemma OneSampleRejected(f32Bits: nat -> real)
    ensures ConvertAsWritten(S16MSB, [0x00, 0x01], f32Bits) == None
    ensures Convert(S16MSB, [0x00, 0x01], f32Bits) == Some([1.0 / 32767.0])
  {
    var bytes: seq<Byte> := [0x00, 0x01];
    assert bytes[..2] == bytes && bytes[2..] == [];
    assert ChunksExact(bytes, 2) == [bytes];
    assert BigEndian(bytes) == 1 by {
      assert bytes[..1] == [0x00];
    }
    assert Decode(S16MSB, bytes, f32Bits) == 1.0 / 32767.0;
    assert Chunks(S16MSB, bytes, f32Bits) == [1.0 / 32767.0];
  }
}
